=== FILE: README.md ===
# Six low-level-design state machines, modelled in Dafny

This project models the sequential core of six small Python systems:

- **Message broker** (`Broker`, message_broker.dfy). A topic is a fixed list of partitions. Each partition is an append-only log with one read cursor per subscriber. A round-robin or a random strategy chooses the partition a message is published to.
- **Parking lot** (`Parking`, parking_lot.dfy). Each spot type has a free list, an occupied list and a display-board count. Entry takes the first free spot of the vehicle's type, and a paid exit hands it back.
- **Calendar** (`Calendar`, calendar_system.dfy). Events live on half-open time intervals. A calendar refuses conflicting events. The module also covers participant lists, daily and weekly recurrence, and the agenda filter.
- **Movie tickets** (`Movies`, book_movie_ticket.dfy). A show keeps a set of booked seats and a version counter. The module also covers the 100-seat screen layout and the movie and theatre catalogues with their city lookups.
- **Flight booking** (`Flights`, book_flight.dfy). An aircraft's seat map runs from seat id to an optional customer, in insertion order. The module covers booking, per-customer cancellation, and the system's flight list with add, cancel and search.
- **Pizza builder** (`Pizza`, pizza_builder.dfy). There are two base pizzas in a plain, New York or Chicago style. The factories look pizzas up by name ignoring case. Decorators add a topping or a size to the cost and the description.

Three shared modules support them:

- `Wrappers` holds `Option` and `Result`.
- `Seqs` holds first-match search, filter and removal on sequences.
- `Clock` holds the minutes in a day and in a week, and the day of a time. The calendar and flight models use it.

Every operation is a pure function from the old state to the result and the new state. Python's `None` results and raised exceptions become `Option` or `Result` values.

Some runtime details are replaced:

- Python object identity becomes an explicit id: spot id, event id, flight id, customer id, user id, and the broker's subscriber id (`Broker.SubscriberId` stands for a `Subscriber` object).
- Times are whole minutes, and a calendar day is `t / MinutesPerDay`.
- The payment outcome, the random draw and the current time are inputs.

The model follows the code in two places where a reader might expect otherwise:

- `register_subscriber` is not idempotent. It resets the cursor to 0 and appends the subscriber to the notification list again.
- `Topic(name, n)` with `n <= 0` is not rejected. It builds a topic with no partitions, and both strategies then fail on it, where Python raises `ZeroDivisionError` or `IndexError`.

## Model

| member | source | states |
|---|---|---|
| Broker.NewTopic | Message_Broker/message_broker.py:37-47 | a topic of `n` partitions with ids 0..n-1 in order, each with an empty log, every cursor at 0 and no subscribers; no partitions when `n` is negative; the result satisfies the partition invariant |
| Broker.AddMessage | Message_Broker/message_broker.py:49-53 | the new log is the old log followed by exactly the new message; every cursor and the subscriber list are unchanged; the cursor bound is kept |
| Broker.RegisterSubscriber | Message_Broker/message_broker.py:55-57 | the subscriber's cursor becomes 0 even when it was registered before; it is appended to the subscriber list again; no other cursor or the log changes |
| Broker.GetNextMessage | Message_Broker/message_broker.py:59-65 | below the end of the log, returns the message at the cursor and advances the cursor by exactly one; at the end, returns nothing and keeps the cursor; other subscribers' cursors never move; the cursor key is present afterwards, as the default dict inserts it |
| Broker.Drain | Message_Broker/message_broker.py:94-103 | reading until nothing is returned yields exactly the log from the cursor onwards, in append order, and the whole log from cursor 0; the cursor ends at the log length and no other cursor moves |
| Broker.ApplyPreservesConsistent | Message_Broker/message_broker.py:49-65 | one append, registration or read keeps every cursor within the log and keeps each subscriber's received messages equal to the log prefix up to its cursor |
| Broker.RunPreservesConsistent | Message_Broker/message_broker.py:49-65 | the same holds after any interleaving of appends, registrations and reads |
| Broker.EmptyPartitionConsistent | Message_Broker/message_broker.py:42-47 | a new partition starts consistent |
| Broker.ChoosePartition | Message_Broker/message_broker.py:21-32 | fails exactly on a topic without partitions; the random choice picks the draw modulo `n`; round-robin picks the topic name's counter modulo `n` and raises only that name's counter by one |
| Broker.RandomReachesEveryPartition | Message_Broker/message_broker.py:22-23 | every partition of a topic can be the random pick |
| Broker.RoundRobinCycles | Message_Broker/message_broker.py:26-32 | the j-th of k successive calls picks `(c + j) mod n` from starting counter `c`; the counter grows by exactly k; other names' counters never change |
| Broker.FreshRoundRobinPicksModulo | Message_Broker/message_broker.py:26-32 | from a fresh strategy the k-th call (0-based) picks partition `k mod n` |
| Broker.Publish | Message_Broker/message_broker.py:74-76 | fails exactly on a topic without partitions; otherwise the chosen partition is that partition after `add_message`, every other partition is as it was, the strategy moves on exactly as one `choose_partition` call moves it, and the topic invariant is kept |
| Broker.Subscribe | Message_Broker/message_broker.py:89-91 | on every partition the subscriber's cursor becomes 0 and it is appended to the subscriber list; logs, ids and other subscribers' cursors are unchanged |
| Broker.RoundRobinScenario | Message_Broker/message_broker.py:74-76 | four round-robin publishes to a two-partition topic put the first and third messages in partition 0 and the second and fourth in partition 1 |
| Parking.SupportedSpot | Parking_Lot/parkinglot.py:246-256 | a car uses a compact spot, a motorbike a mini spot and a truck a large spot, and no other pairing |
| Parking.CreateSpot | Parking_Lot/parkinglot.py:348-354 | the spot has the requested kind, id, floor and amount, and is free |
| Parking.ChangeBoard | Parking_Lot/parkinglot.py:309-310 | the type's count becomes its old count, or 0 if it had none, plus the delta; other types' counts are unchanged |
| Parking.AddParkingSpot | Parking_Lot/parkinglot.py:394-396 | the spot is appended to its type's free list and that type's count rises by one; the occupied list and every other type are unchanged |
| Parking.FindParkingSpot | Parking_Lot/parkinglot.py:338-342 | the first spot of the type's free list that is marked free, or none exactly when no spot there is marked free |
| Parking.Entry | Parking_Lot/parkinglot.py:362-372 | no ticket exactly when no free spot is found; otherwise the ticket carries the vehicle and the chosen spot marked taken, the spot leaves the free list and is appended to the occupied list, the count drops by one, and other types are unchanged |
| Parking.Exit | Parking_Lot/parkinglot.py:374-380 | a refused payment changes nothing; a paid exit fails exactly when the ticket's spot is not in the occupied list; otherwise the spot leaves the occupied list, is appended to the free list marked free, the count rises by one, and other types are unchanged |
| Parking.EmptyLotInvariant | Parking_Lot/parkinglot.py:385-392 | a new lot satisfies the invariant: per type, count equals free-list length, ids are distinct, the two lists share no id, free-list spots are free and occupied ones are not |
| Parking.AddPreservesInvariant | Parking_Lot/parkinglot.py:394-396 | adding a free spot with an id new to its type keeps the invariant |
| Parking.EntryTakesHead | Parking_Lot/parkinglot.py:338-342 | under the invariant, entry fails exactly when the type's free list is empty, and otherwise takes its first spot |
| Parking.EntryPreservesInvariant | Parking_Lot/parkinglot.py:362-372 | a successful entry keeps the invariant |
| Parking.ExitPreservesInvariant | Parking_Lot/parkinglot.py:374-380 | a successful exit keeps the invariant |
| Parking.EntryThenExitRestoresCount | Parking_Lot/parkinglot.py:362-380 | a paid exit with the ticket just issued succeeds and restores the count, the free-list length and the occupied list |
| Calendar.NewEvent | Calendar_System/calendar_system.py:20-26 | a new event keeps its fields and has its owner as only participant |
| Calendar.AddParticipant | Calendar_System/calendar_system.py:28-30 | afterwards the user is a participant; a user not yet listed is appended at the end, the others keep their order; nothing changes if the user was there; a duplicate-free list stays duplicate-free |
| Calendar.RemoveParticipant | Calendar_System/calendar_system.py:32-34 | nothing changes if the user is absent; otherwise the first occurrence is removed and the other participants keep their order; in a duplicate-free list the user is then absent |
| Calendar.AddParticipantIdempotent | Calendar_System/calendar_system.py:28-30 | adding the same participant twice equals adding it once |
| Calendar.NewEventHasNoDuplicates | Calendar_System/calendar_system.py:25 | a new event's participant list has no duplicates |
| Calendar.ConflictsIsIntervalOverlap | Calendar_System/calendar_system.py:57 | the conflict test is the intersection of the half-open intervals [start, end) |
| Calendar.ConflictsSymmetric | Calendar_System/calendar_system.py:57 | a conflicts with b exactly when b conflicts with a |
| Calendar.BackToBackDoNotConflict | Calendar_System/calendar_system.py:57 | an event ending when another starts conflicts with it in neither direction |
| Calendar.HasConflict | Calendar_System/calendar_system.py:55-59 | true exactly when some event in the list overlaps the new one |
| Calendar.CreateEvent | Calendar_System/calendar_system.py:42-48 | succeeds exactly when no existing event overlaps; on failure the calendar is unchanged; on success the event is appended; pairwise disjoint events stay disjoint |
| Calendar.DeleteEvent | Calendar_System/calendar_system.py:50-53 | a no-op when no event has that id; otherwise the first event with that id is removed and the others keep their order; disjointness is kept |
| Calendar.DeleteUndoesCreate | Calendar_System/calendar_system.py:42-53 | deleting an event right after creating it, when no event had its id, restores the calendar |
| Calendar.CreateAllPairwiseDisjoint | Calendar_System/calendar_system.py:42-48 | events entered only through `create_event` never overlap |
| Calendar.GetStrategy | Calendar_System/calendar_system.py:93-100 | "DAILY" gives the daily strategy, "WEEKLY" the weekly one, anything else none |
| Calendar.NextOccurrence | Calendar_System/calendar_system.py:84-90 | start and end move by one day or one week; duration, title, owner and recurrence are kept; the owner is the only participant |
| Calendar.NextDailyDoesNotConflict | Calendar_System/calendar_system.py:84-86 | an event lasting at most a day does not overlap its next daily occurrence |
| Calendar.ListEvents | Calendar_System/calendar_system.py:61-76 | none exactly for an unknown period; otherwise exactly the events starting between now and the end of the 1-, 7- or 30-day window |
| Calendar.ListEventsAfterCreate | Calendar_System/calendar_system.py:74-76 | the agenda keeps calendar order: after a successful create it is the earlier agenda followed by the new event when that event starts in the window |
| Movies.NewShowAllAvailable | Book_Movie_Ticket/bookmyshow.py:40-45 | every seat of a new show is available |
| Movies.AvailabilityAfterBooking | Book_Movie_Ticket/bookmyshow.py:44-57 | after a booking attempt for a seat, another seat is available exactly when it was before and is not the seat asked for |
| Movies.BookSeat | Book_Movie_Ticket/bookmyshow.py:47-57 | succeeds exactly when the seat is available; a failure changes nothing; a success adds exactly that seat and raises the version by one |
| Movies.NewShowVersionCounts | Book_Movie_Ticket/bookmyshow.py:40-41 | a new show's version equals its number of booked seats |
| Movies.BookSeatPreservesVersionCount | Book_Movie_Ticket/bookmyshow.py:47-57 | booking keeps the version equal to the number of booked seats |
| Movies.DoubleBookingFails | Book_Movie_Ticket/bookmyshow.py:186-187 | booking a free seat twice succeeds the first time and fails the second |
| Movies.CreateSeats | Book_Movie_Ticket/bookmyshow.py:148-156 | 100 seats with ids 0..99: Silver below 40, Gold from 40 to 69, Platinum from 70 |
| Movies.AddMovie | Book_Movie_Ticket/bookmyshow.py:72-74 | the movie is appended to the full list and to its city's list; other cities' lists are unchanged |
| Movies.GetMoviesByCity | Book_Movie_Ticket/bookmyshow.py:79-80 | the list kept for the city, or `[]` for a city nothing was added for |
| Movies.GetMovieByName | Book_Movie_Ticket/bookmyshow.py:76-77 | the first movie with that name in insertion order, or none exactly when no movie has it |
| Movies.MoviesByCityInInsertionOrder | Book_Movie_Ticket/bookmyshow.py:72-80 | after any sequence of additions, a city's list is the movies added for it, in call order |
| Movies.AddTheatre | Book_Movie_Ticket/bookmyshow.py:87-89 | the theatre is appended to the full list and to its city's list; other cities' lists are unchanged |
| Movies.TheatresByCityInInsertionOrder | Book_Movie_Ticket/bookmyshow.py:87-89 | after any sequence of additions, a city's theatre list is the theatres added for it, in call order |
| Movies.ShowsByMovie | Book_Movie_Ticket/bookmyshow.py:92-97 | one entry per theatre with a show of the movie, never two for the same theatre, each holding exactly its non-empty list of matching shows, in the order the theatres first appear in the list |
| Movies.GetShowsByMovieAndCity | Book_Movie_Ticket/bookmyshow.py:91-97 | the same for the city's theatre list: distinct keys, each a theatre of the city with its shows of the movie, every such theatre a key, in the city's order |
| Movies.ShowsAfterAddTheatre | Book_Movie_Ticket/bookmyshow.py:87-97 | adding a theatre to a city extends that city's result by the theatre and its shows when it has some and is not a key yet; other cities' results do not change |
| Movies.DuplicateTheatreKeptOnce | Book_Movie_Ticket/bookmyshow.py:92-97 | adding the same theatre to a city twice gives the same result as adding it once |
| Flights.AddSeat | Book_Flights/book_flight.py:120-121 | afterwards the id maps to the new seat and every other id keeps its seat; every existing entry keeps its position, so a replaced seat stays where it was; the map grows only for a new id; ids stay distinct |
| Flights.AddFreshSeatAppends | Book_Flights/book_flight.py:120-121 | a seat with a new id is added at the end of the insertion order |
| Flights.BookSeat | Book_Flights/book_flight.py:123-128 | succeeds exactly when the seat exists and has no customer; a failure changes nothing; a success gives that seat the customer and leaves every other seat alone; no entry changes position |
| Flights.CancelForCustomer | Book_Flights/book_flight.py:140-145 | fails, changing nothing, exactly when the customer holds no seat; otherwise clears the first seat in insertion order held by the customer and no other |
| Flights.CancelUndoesBooking | Book_Flights/book_flight.py:123-145 | for a customer who held no seat, cancelling right after a booking restores the flight |
| Flights.AddFlight | Book_Flights/book_flight.py:152-154 | appends the flight and reports success |
| Flights.CancelFlight | Book_Flights/book_flight.py:156-160 | succeeds exactly when a flight with that id is listed, and then removes the first such flight and keeps the others in order; otherwise nothing changes |
| Flights.CancelUndoesAdd | Book_Flights/book_flight.py:152-160 | cancelling a flight right after adding it, when no listed flight had its id, restores the flight list |
| Flights.FetchFlights | Book_Flights/book_flight.py:162-163 | exactly the listed flights with that source, destination and calendar day |
| Flights.FetchAfterAdd | Book_Flights/book_flight.py:152-163 | a search after adding a flight is the earlier result followed by the new flight if it matches, so results keep list order |
| Flights.BookCancelRebookScenario | Book_Flights/book_flight.py:197-216 | on the demo aircraft, booking S1 succeeds, a second booking fails, cancellation succeeds and rebooking succeeds |
| Pizza.Lower | Pizza_builder/pizza_builder.py:139 | every character is lower-cased and the length is kept |
| Pizza.LowerIdempotent | Pizza_builder/pizza_builder.py:74-76 | lower-casing twice equals lower-casing once |
| Pizza.Title | Pizza_builder/pizza_builder.py:148 | a letter at the start or after a non-letter becomes upper case, a letter after a letter lower case, and any other character is kept; the length and the lower-cased text are kept |
| Pizza.TitleIdempotent | Pizza_builder/pizza_builder.py:148 | title-casing a title-cased string changes nothing |
| Pizza.TitleOfLarge | Pizza_builder/pizza_builder.py:148 | "large" title-cases to "Large" |
| Pizza.SizeCost | Pizza_builder/pizza_builder.py:151-152 | large costs 100 and medium 50 exactly for those names; every other size costs nothing |
| Pizza.Cost | Pizza_builder/pizza_builder.py:101-152 | no decorated pizza costs less than the base pizza at the bottom of its decorator chain |
| Pizza.Description | Pizza_builder/pizza_builder.py:101-148 | the base pizza's description is a prefix of every decorated description |
| Pizza.StyleKeepsCost | Pizza_builder/pizza_builder.py:30-64 | New York and Chicago variants cost what the plain base costs: 200 for Margherita, 250 for Farmhouse |
| Pizza.GetPizza | Pizza_builder/pizza_builder.py:72-86 | a pizza exactly for "margherita" or "farmhouse" in any case, of the factory's style and the named kind |
| Pizza.GetPizzaIgnoresCase | Pizza_builder/pizza_builder.py:74-86 | the lookup depends only on the lower-cased name |
| Pizza.CostOfDecorations | Pizza_builder/pizza_builder.py:105-152 | a stack of decorators costs the wrapped pizza plus the sum of their increments (50, 40, 30, size price) and keeps its base |
| Pizza.DecorateAppendsLabel | Pizza_builder/pizza_builder.py:101-148 | each decorator appends its own label to the description of the pizza it wraps |
| Pizza.DescriptionOfDecorations | Pizza_builder/pizza_builder.py:101-148 | a stack of decorators describes the wrapped pizza followed by their labels, innermost first |
| Pizza.SumIncrementsPermutation | Pizza_builder/pizza_builder.py:105-152 | the total of the increments does not depend on their order |
| Pizza.CostIndependentOfOrder | Pizza_builder/pizza_builder.py:105-152 | the same decorators applied in any order give the same cost |
| Pizza.DemoPizzaShape | Pizza_builder/pizza_builder.py:156-160 | the demo order is a large New York Farmhouse with cheese and then jalapenos |
| Pizza.DemoCost | Pizza_builder/pizza_builder.py:155-166 | the demo order costs 440 |
| Pizza.DemoDescription | Pizza_builder/pizza_builder.py:155-166 | the demo order is described as "New York Farmhouse (Large), Cheese, Jalapenos" |

## Left out

- Threads, wake-up events and locks: `Subscriber.notify`, the consumer threads started by `subscribe`, `Partition.lock` and `Show.lock`. Each operation is one atomic step, and `consume`'s inner loop is `Broker.Drain`.
- Printing, `time.time()`, and the ticket's `uuid` and `datetime.now()` fields: output or nondeterminism with no effect on state.
- `random.choice`: replaced by an injected draw reduced modulo the partition count.
- The clock read by `list_events`: the current time is a parameter. The agenda is returned rather than printed.
- Date and time types: times are whole minutes, and `date()` is `t / 1440`.
- Payment methods: `Cash` and `CreditCard` always approve, so the payment outcome is a boolean input to `Parking.Exit`.
- `prepare` and `bake`: they only print.
- The account and user classes (`Admin`, `ParkingAttendant`, `Customer`), `Booking` and `Payment`: they only delegate or hold data. `FlightSystem.book_seat` delegates to `Aircraft.book_seat`, which `Flights.BookSeat` models; see the next line for what the model does not propagate.
- `BookMyShow.create_booking` and the demo drivers: print-driven flows. The parts of them with checkable outcomes are the scenario lemmas.
- Screens and theatre seat lists: a show keeps only its screen's id.
- Shared mutable objects: Python updates events, aircraft and shows in place, and every holder of a reference sees the change. The model's operations return new values instead, and no container is updated behind them. So `meeting.add_participant(bob)` on an event the calendar already holds (Calendar_System/calendar_system.py:110-111) gives a new `Event` that the `Cal` does not see. Likewise `FlightSystem.book_seat` (Book_Flights/book_flight.py:165-166) gives a new `Aircraft` that the `FlightSystem`'s flight does not see. Writing the updated value back into its container is left to the caller. Parking spots are copied the same way: each list holding a spot, and the ticket, has its own `is_free` flag. So a spot added under two types is issued twice in the model. After `add_parking_spot(MINI, x)` and `add_parking_spot(COMPACT, x)`, a car and then a motorbike both get tickets for `x`, while in Python the motorbike gets `None` (Parking_Lot/parkinglot.py:338-342, 368). `Parking.Invariant` requires ids to be distinct within one type only.
- Object identity and `__eq__`: replaced by explicit ids, so `list.remove` and `in` on spots, events and flights compare ids. A theatre is a dict key by its whole value, id included, so two equal theatre values count as one theatre.
- Parking.Exit: when the ticket's spot is not in the occupied list, Python sets `is_free` on the spot and then raises `ValueError`. The model returns a failure and leaves the lot unchanged.
- Pizza.Lower: covers ASCII letters only. Python's `str.lower` and `str.title` also convert non-ASCII letters.
- Pizza.Title: covers ASCII letters only, for the same reason.
- Flights.FetchFlights: its own contract states membership in both directions. Order is stated by `Flights.FetchAfterAdd`.
- Calendar.ListEvents: its own contract states membership in both directions. Order is stated by `Calendar.ListEventsAfterCreate`.

=== FILE: book_flight.dfy ===
/** Flight booking: an aircraft's seat map (seat id to an optional customer,
    kept in insertion order as a Python dict is), per-customer cancellation,
    and the flight list of the booking system. Customers and flights are
    identified by their ids; a flight's date is a time in whole minutes. */
module Flights {
  import opened Wrappers
  import opened Seqs
  import opened Clock

  datatype SeatType = Regular | ExtraLegroom | EmergencyExit

  type CustomerId = string

  datatype Seat = Seat(id: string, seatType: SeatType, customer: Option<CustomerId>)

  /** `seats` lists the dict's entries in insertion order. */
  datatype Aircraft = Aircraft(id: string, seats: seq<Seat>)

  datatype Flight = Flight(
    id: string,
    date: nat,
    aircraft: Aircraft,
    startTime: string,
    endTime: string,
    src: string,
    dst: string)

  datatype FlightSystem = FlightSystem(flights: seq<Flight>)

  /** A fresh, unbooked seat. */
  function NewSeat(id: string, seatType: SeatType): Seat
  {
    Seat(id, seatType, None)
  }

  /** No two entries share a seat id, as keys of a dict cannot. */
  predicate DistinctSeatIds(a: Aircraft)
  {
    forall i, j :: 0 <= i < j < |a.seats| ==> a.seats[i].id != a.seats[j].id
  }

  function SeatIndex(a: Aircraft, id: string): (r: Option<nat>)
    ensures r.Some? ==> r.value < |a.seats| && a.seats[r.value].id == id
    ensures r.Some? ==> forall j :: 0 <= j < r.value ==> a.seats[j].id != id
    ensures r.None? <==> forall j :: 0 <= j < |a.seats| ==> a.seats[j].id != id
  {
    FindFirst(a.seats, (s: Seat) => s.id == id)
  }

  /** `self.seats.get(seat_id)`. */
  function Lookup(a: Aircraft, id: string): Option<Seat>
  {
    match SeatIndex(a, id)
    case None => None
    case Some(i) => Some(a.seats[i])
  }

  /** `Aircraft.add_seat`: store the seat under its id; an existing seat with
      that id is replaced in place, a new id is appended. */
  function AddSeat(a: Aircraft, seat: Seat): (r: Aircraft)
    ensures Lookup(r, seat.id) == Some(seat)
    ensures forall id :: id != seat.id ==> Lookup(r, id) == Lookup(a, id)
    ensures |r.seats| == |a.seats| + (if Lookup(a, seat.id).Some? then 0 else 1)
    ensures forall j :: 0 <= j < |a.seats| ==> r.seats[j].id == a.seats[j].id
    ensures r.id == a.id
    ensures DistinctSeatIds(a) ==> DistinctSeatIds(r)
  {
    match SeatIndex(a, seat.id)
    case Some(i) =>
      var r := a.(seats := a.seats[i := seat]);
      assert forall id :: SeatIndex(r, id) == SeatIndex(a, id) by {
        forall id ensures SeatIndex(r, id) == SeatIndex(a, id) {
          SameIdsSameIndex(a, r, id);
        }
      }
      r
    case None =>
      var r := a.(seats := a.seats + [seat]);
      assert forall id :: id != seat.id ==> SeatIndex(r, id) == SeatIndex(a, id) by {
        forall id | id != seat.id ensures SeatIndex(r, id) == SeatIndex(a, id) {
          AppendKeepsIndex(a, seat, id);
        }
      }
      assert r.seats[|a.seats|] == seat;
      assert forall j :: 0 <= j < |a.seats| ==> r.seats[j] == a.seats[j];
      assert SeatIndex(r, seat.id) == Some(|a.seats|);
      r
  }

  /** Seat lists that agree on every id have the same index for every id. */
  lemma SameIdsSameIndex(a: Aircraft, b: Aircraft, id: string)
    requires |a.seats| == |b.seats|
    requires forall j :: 0 <= j < |a.seats| ==> a.seats[j].id == b.seats[j].id
    ensures SeatIndex(a, id) == SeatIndex(b, id)
  {
  }

  /** Appending a seat with another id leaves the index of `id` alone. */
  lemma AppendKeepsIndex(a: Aircraft, seat: Seat, id: string)
    requires id != seat.id
    ensures SeatIndex(a.(seats := a.seats + [seat]), id) == SeatIndex(a, id)
  {
    var b := a.(seats := a.seats + [seat]);
    assert forall j :: 0 <= j < |a.seats| ==> b.seats[j] == a.seats[j];
    if SeatIndex(a, id).None? {
      assert forall j :: 0 <= j < |b.seats| ==> b.seats[j].id != id;
    }
  }

  /** `Aircraft.book_seat`: succeeds exactly when the seat exists and is not
      held, and then records the customer on it; otherwise nothing changes. */
  function BookSeat(a: Aircraft, id: string, c: CustomerId): (r: (bool, Aircraft))
    ensures r.0 <==> Lookup(a, id).Some? && Lookup(a, id).value.customer.None?
    ensures !r.0 ==> r.1 == a
    ensures r.0 ==> Lookup(r.1, id) == Some(Lookup(a, id).value.(customer := Some(c)))
    ensures forall other :: other != id ==> Lookup(r.1, other) == Lookup(a, other)
    ensures |r.1.seats| == |a.seats| && r.1.id == a.id
    ensures forall j :: 0 <= j < |a.seats| ==> r.1.seats[j].id == a.seats[j].id
  {
    match SeatIndex(a, id)
    case Some(i) =>
      if a.seats[i].customer.None? then
        var r := a.(seats := a.seats[i := a.seats[i].(customer := Some(c))]);
        assert forall other :: SeatIndex(r, other) == SeatIndex(a, other) by {
          forall other ensures SeatIndex(r, other) == SeatIndex(a, other) {
            SameIdsSameIndex(a, r, other);
          }
        }
        (true, r)
      else (false, a)
    case None => (false, a)
  }

  /** The position of the first seat, in insertion order, held by `c`. */
  function FirstHeldBy(a: Aircraft, c: CustomerId): (r: Option<nat>)
    ensures r.Some? ==> r.value < |a.seats| && a.seats[r.value].customer == Some(c)
    ensures r.Some? ==> forall j :: 0 <= j < r.value ==> a.seats[j].customer != Some(c)
    ensures r.None? <==> forall j :: 0 <= j < |a.seats| ==> a.seats[j].customer != Some(c)
  {
    FindFirst(a.seats, (s: Seat) => s.customer == Some(c))
  }

  /** `Flight.cancel_for_customer`: free the first seat held by `c` and
      report success; when `c` holds no seat, report failure and change
      nothing. Every other seat is left as it was. */
  function CancelForCustomer(f: Flight, c: CustomerId): (r: (bool, Flight))
    ensures !r.0 <==> forall j :: 0 <= j < |f.aircraft.seats| ==> f.aircraft.seats[j].customer != Some(c)
    ensures !r.0 ==> r.1 == f
    ensures r.0 ==>
      var i := FirstHeldBy(f.aircraft, c).value;
      && |r.1.aircraft.seats| == |f.aircraft.seats|
      && r.1.aircraft.seats[i] == f.aircraft.seats[i].(customer := None)
      && forall j :: 0 <= j < |f.aircraft.seats| && j != i ==> r.1.aircraft.seats[j] == f.aircraft.seats[j]
    ensures r.1.(aircraft := f.aircraft) == f && r.1.aircraft.id == f.aircraft.id
  {
    match FirstHeldBy(f.aircraft, c)
    case None => (false, f)
    case Some(i) =>
      var seats := f.aircraft.seats;
      (true, f.(aircraft := f.aircraft.(seats := seats[i := seats[i].(customer := None)])))
  }

  /** Cancelling right after the booking of a customer who held no seat
      undoes that booking. */
  lemma CancelUndoesBooking(f: Flight, id: string, c: CustomerId)
    requires forall j :: 0 <= j < |f.aircraft.seats| ==> f.aircraft.seats[j].customer != Some(c)
    requires BookSeat(f.aircraft, id, c).0
    ensures var booked := f.(aircraft := BookSeat(f.aircraft, id, c).1);
      CancelForCustomer(booked, c) == (true, f)
  {
    var a := f.aircraft;
    var i := SeatIndex(a, id).value;
    var a' := BookSeat(a, id, c).1;
    assert a'.seats == a.seats[i := a.seats[i].(customer := Some(c))];
    assert FirstHeldBy(a', c) == Some(i);
    assert a'.seats[i := a'.seats[i].(customer := None)] == a.seats;
  }

  // ---------------------------------------------------------------------
  // Flight list

  /** `FlightSystem.add_flight`: always appends and reports success. */
  function AddFlight(fs: FlightSystem, f: Flight): (r: (bool, FlightSystem))
    ensures r.0
    ensures r.1.flights == fs.flights + [f]
  {
    (true, FlightSystem(fs.flights + [f]))
  }

  /** `FlightSystem.cancel_flight`: remove the first flight with the same id,
      reporting whether there was one. */
  function CancelFlight(fs: FlightSystem, f: Flight): (r: (bool, FlightSystem))
    ensures r.0 <==> exists i :: 0 <= i < |fs.flights| && fs.flights[i].id == f.id
    ensures !r.0 ==> r.1 == fs
    ensures r.0 ==> |r.1.flights| == |fs.flights| - 1
    ensures r.0 ==> multiset(r.1.flights) <= multiset(fs.flights)
    ensures r.0 ==> exists i ::
      && 0 <= i < |fs.flights| && fs.flights[i].id == f.id
      && (forall j :: 0 <= j < i ==> fs.flights[j].id != f.id)
      && r.1.flights == fs.flights[..i] + fs.flights[i + 1..]
  {
    match FindFirst(fs.flights, (x: Flight) => x.id == f.id)
    case None => (false, fs)
    case Some(i) =>
      var r := RemoveAt(fs.flights, i);
      assert multiset(r) + multiset{fs.flights[i]} == multiset(fs.flights);
      assert r == fs.flights[..i] + fs.flights[i + 1..];
      (true, FlightSystem(r))
  }

  /** Cancelling a flight right after adding it, when no listed flight had
      its id, restores the flight list. */
  lemma CancelUndoesAdd(fs: FlightSystem, f: Flight)
    requires forall j :: 0 <= j < |fs.flights| ==> fs.flights[j].id != f.id
    ensures CancelFlight(AddFlight(fs, f).1, f) == (true, fs)
  {
    var s := fs.flights + [f];
    var i := |fs.flights|;
    assert s[i].id == f.id;
    assert forall j :: 0 <= j < i ==> s[j].id != f.id;
    assert s[..i] + s[i + 1..] == fs.flights;
  }

  function Matches(src: string, dst: string, date: nat): Flight -> bool
  {
    (f: Flight) => f.src == src && f.dst == dst && Day(f.date) == Day(date)
  }

  /** `FlightSystem.fetch_flights`: the flights from `src` to `dst` on the
      same calendar day as `date`, in list order. */
  function FetchFlights(fs: FlightSystem, src: string, dst: string, date: nat): (r: seq<Flight>)
    ensures forall k :: 0 <= k < |r| ==>
      r[k] in fs.flights && r[k].src == src && r[k].dst == dst && Day(r[k].date) == Day(date)
    ensures forall i :: 0 <= i < |fs.flights| && Matches(src, dst, date)(fs.flights[i]) ==> fs.flights[i] in r
  {
    var r := Filter(fs.flights, Matches(src, dst, date));
    assert forall k :: 0 <= k < |r| ==> Matches(src, dst, date)(r[k]);
    r
  }

  /** Flights added later come after the earlier ones in a search result. */
  lemma FetchAfterAdd(fs: FlightSystem, f: Flight, src: string, dst: string, date: nat)
    ensures FetchFlights(AddFlight(fs, f).1, src, dst, date) ==
      FetchFlights(fs, src, dst, date) + (if Matches(src, dst, date)(f) then [f] else [])
  {
    FilterConcat(fs.flights, [f], Matches(src, dst, date));
  }

  // ---------------------------------------------------------------------
  // The booking sequence of the demo

  /** Adding a seat under a new id appends it. */
  lemma AddFreshSeatAppends(a: Aircraft, seat: Seat)
    requires forall j :: 0 <= j < |a.seats| ==> a.seats[j].id != seat.id
    ensures AddSeat(a, seat).seats == a.seats + [seat]
  {
  }

  /** The demo's seats S1..S5, all regular and unbooked. */
  function DemoSeats(): seq<Seat>
  {
    [NewSeat("S1", Regular), NewSeat("S2", Regular), NewSeat("S3", Regular),
     NewSeat("S4", Regular), NewSeat("S5", Regular)]
  }

  /** On the demo's aircraft, booking S1 succeeds, a second booking of S1
      fails, the customer's cancellation succeeds, and S1 can then be booked
      again. */
  lemma BookCancelRebookScenario()
    ensures
      var f := Flight("F1001", 0, Aircraft("A1", DemoSeats()), "10:00", "12:00", "DEL", "BLR");
      var (ok1, a1) := BookSeat(f.aircraft, "S1", "cust1");
      var (ok2, a2) := BookSeat(a1, "S1", "cust1");
      var (ok3, f3) := CancelForCustomer(f.(aircraft := a2), "cust1");
      var (ok4, _) := BookSeat(f3.aircraft, "S1", "cust1");
      ok1 && !ok2 && ok3 && ok4
  {
    var f := Flight("F1001", 0, Aircraft("A1", DemoSeats()), "10:00", "12:00", "DEL", "BLR");
    assert SeatIndex(f.aircraft, "S1") == Some(0);
    CancelUndoesBooking(f, "S1", "cust1");
  }
}

=== FILE: book_movie_ticket.dfy ===
/** Show seat booking and the movie and theatre catalogues. A show keeps the
    set of booked seat ids and a version counter; the lock around
    `book_seat` is not modelled, each booking is one atomic step. */
module Movies {
  import opened Wrappers
  import opened Seqs

  datatype City = Bangalore | Delhi

  datatype SeatCategory = Silver | Gold | Platinum

  datatype Movie = Movie(id: int, name: string, durationMinutes: int)

  datatype Seat = Seat(id: int, category: SeatCategory)

  datatype Show = Show(id: int, movie: Movie, screenId: int, startTime: int, booked: set<int>, version: nat)

  datatype Theatre = Theatre(id: int, city: City, shows: seq<Show>)

  datatype MovieController = MovieController(cityMovies: map<City, seq<Movie>>, allMovies: seq<Movie>)

  datatype TheatreController = TheatreController(cityTheatres: map<City, seq<Theatre>>, allTheatres: seq<Theatre>)

  // ---------------------------------------------------------------------
  // Seat booking

  /** A show as constructed: nothing booked, version 0. */
  function NewShow(id: int, movie: Movie, screenId: int, startTime: int): Show
  {
    Show(id, movie, screenId, startTime, {}, 0)
  }

  predicate IsSeatAvailable(sh: Show, seat: int)
  {
    seat !in sh.booked
  }

  /** `Show.book_seat`. The version read at the start is compared with the
      version again just before the update; inside one atomic step the two
      readings agree, so booking fails exactly when the seat is already
      booked. */
  function BookSeat(sh: Show, seat: int): (r: (bool, Show))
    ensures r.0 <==> IsSeatAvailable(sh, seat)
    ensures !r.0 ==> r.1 == sh
    ensures r.0 ==> r.1.booked == sh.booked + {seat} && r.1.version == sh.version + 1
    ensures r.0 ==> !IsSeatAvailable(r.1, seat)
    ensures r.1.(booked := sh.booked, version := sh.version) == sh
  {
    var currentVersion := sh.version;
    if !IsSeatAvailable(sh, seat) then (false, sh)
    else if currentVersion != sh.version then (false, sh)
    else (true, sh.(booked := sh.booked + {seat}, version := sh.version + 1))
  }

  /** The version counts the successful bookings. */
  predicate VersionCountsBookings(sh: Show)
  {
    sh.version == |sh.booked|
  }

  lemma NewShowVersionCounts(id: int, movie: Movie, screenId: int, startTime: int)
    ensures VersionCountsBookings(NewShow(id, movie, screenId, startTime))
  {
  }

  lemma BookSeatPreservesVersionCount(sh: Show, seat: int)
    requires VersionCountsBookings(sh)
    ensures VersionCountsBookings(BookSeat(sh, seat).1)
  {
    if IsSeatAvailable(sh, seat) {
      assert |sh.booked + {seat}| == |sh.booked| + 1;
    }
  }

  /** Every seat of a new show is available. */
  lemma NewShowAllAvailable(id: int, movie: Movie, screenId: int, startTime: int, seat: int)
    ensures IsSeatAvailable(NewShow(id, movie, screenId, startTime), seat)
  {
  }

  /** After a booking attempt for `seat`, a seat is available exactly when it
      was available before and is not `seat`, whether the attempt succeeded
      or not. */
  lemma AvailabilityAfterBooking(sh: Show, seat: int, other: int)
    ensures IsSeatAvailable(BookSeat(sh, seat).1, other) <==> IsSeatAvailable(sh, other) && other != seat
  {
  }

  /** Booking the same seat twice: the first succeeds, the second fails. */
  lemma DoubleBookingFails(sh: Show, seat: int)
    requires IsSeatAvailable(sh, seat)
    ensures BookSeat(sh, seat).0
    ensures !BookSeat(BookSeat(sh, seat).1, seat).0
  {
  }

  // ---------------------------------------------------------------------
  // Seats of a screen

  /** The category `create_seats` gives to seat id `i`. */
  function CategoryOf(i: int): SeatCategory
  {
    if i < 40 then Silver else if i < 70 then Gold else Platinum
  }

  /** `create_seats`: ids 0..99, Silver below 40, Gold below 70, then Platinum. */
  method CreateSeats() returns (seats: seq<Seat>)
    ensures |seats| == 100
    ensures forall i :: 0 <= i < 100 ==> seats[i] == Seat(i, CategoryOf(i))
  {
    seats := [];
    var i := 0;
    while i < 40
      invariant 0 <= i <= 40 && |seats| == i
      invariant forall j :: 0 <= j < i ==> seats[j] == Seat(j, CategoryOf(j))
    {
      seats := seats + [Seat(i, Silver)];
      i := i + 1;
    }
    i := 40;
    while i < 70
      invariant 40 <= i <= 70 && |seats| == i
      invariant forall j :: 0 <= j < i ==> seats[j] == Seat(j, CategoryOf(j))
    {
      seats := seats + [Seat(i, Gold)];
      i := i + 1;
    }
    i := 70;
    while i < 100
      invariant 70 <= i <= 100 && |seats| == i
      invariant forall j :: 0 <= j < i ==> seats[j] == Seat(j, CategoryOf(j))
    {
      seats := seats + [Seat(i, Platinum)];
      i := i + 1;
    }
  }

  // ---------------------------------------------------------------------
  // Movie catalogue

  /** `get_movies_by_city`: the list kept for the city, or `[]` for a city
      nothing was added for. */
  function GetMoviesByCity(mc: MovieController, city: City): (r: seq<Movie>)
    ensures city !in mc.cityMovies ==> r == []
    ensures city in mc.cityMovies ==> r == mc.cityMovies[city]
  {
    if city in mc.cityMovies then mc.cityMovies[city] else []
  }

  /** `MovieController.add_movie`. */
  function AddMovie(mc: MovieController, m: Movie, city: City): (r: MovieController)
    ensures r.allMovies == mc.allMovies + [m]
    ensures GetMoviesByCity(r, city) == GetMoviesByCity(mc, city) + [m]
    ensures forall c :: c != city ==> GetMoviesByCity(r, c) == GetMoviesByCity(mc, c)
  {
    MovieController(mc.cityMovies[city := GetMoviesByCity(mc, city) + [m]], mc.allMovies + [m])
  }

  /** `get_movie_by_name`: the first movie added under that name. */
  function GetMovieByName(mc: MovieController, name: string): (r: Option<Movie>)
    ensures r.Some? ==> r.value in mc.allMovies && r.value.name == name
    ensures r.Some? ==> exists i :: 0 <= i < |mc.allMovies| && mc.allMovies[i] == r.value &&
                                   forall j :: 0 <= j < i ==> mc.allMovies[j].name != name
    ensures r.None? <==> forall i :: 0 <= i < |mc.allMovies| ==> mc.allMovies[i].name != name
  {
    match FindFirst(mc.allMovies, (m: Movie) => m.name == name)
    case None => None
    case Some(i) => Some(mc.allMovies[i])
  }

  /** The catalogue built by a sequence of `add_movie` calls. */
  function AddMovies(mc: MovieController, adds: seq<(Movie, City)>): MovieController
    decreases |adds|
  {
    if |adds| == 0 then mc else AddMovies(AddMovie(mc, adds[0].0, adds[0].1), adds[1..])
  }

  /** The movies of `adds` that were added for `city`, in call order. */
  function AddedFor(adds: seq<(Movie, City)>, city: City): seq<Movie>
    decreases |adds|
  {
    if |adds| == 0 then []
    else (if adds[0].1 == city then [adds[0].0] else []) + AddedFor(adds[1..], city)
  }

  /** After any sequence of additions, a city's list is what was added for it
      in insertion order, following what the controller held before. */
  lemma {:induction false} MoviesByCityInInsertionOrder(mc: MovieController, adds: seq<(Movie, City)>, city: City)
    ensures GetMoviesByCity(AddMovies(mc, adds), city) == GetMoviesByCity(mc, city) + AddedFor(adds, city)
    decreases |adds|
  {
    if |adds| > 0 {
      MoviesByCityInInsertionOrder(AddMovie(mc, adds[0].0, adds[0].1), adds[1..], city);
    }
  }

  // ---------------------------------------------------------------------
  // Theatre catalogue

  function TheatresIn(tc: TheatreController, city: City): seq<Theatre>
  {
    if city in tc.cityTheatres then tc.cityTheatres[city] else []
  }

  /** `TheatreController.add_theatre`. */
  function AddTheatre(tc: TheatreController, th: Theatre, city: City): (r: TheatreController)
    ensures r.allTheatres == tc.allTheatres + [th]
    ensures TheatresIn(r, city) == TheatresIn(tc, city) + [th]
    ensures forall c :: c != city ==> TheatresIn(r, c) == TheatresIn(tc, c)
  {
    TheatreController(tc.cityTheatres[city := TheatresIn(tc, city) + [th]], tc.allTheatres + [th])
  }

  /** The shows of a theatre that play `movie`, compared by movie id. */
  function ShowsOf(th: Theatre, movie: Movie): seq<Show>
  {
    Filter(th.shows, (sh: Show) => sh.movie.id == movie.id)
  }

  /** The theatres of a list of (theatre, shows) entries, in order. */
  function Keys(r: seq<(Theatre, seq<Show>)>): (ks: seq<Theatre>)
    ensures |ks| == |r| && forall k :: 0 <= k < |r| ==> ks[k] == r[k].0
  {
    if |r| == 0 then [] else [r[0].0] + Keys(r[1..])
  }

  /** No theatre is a key twice. */
  predicate DistinctKeys(r: seq<(Theatre, seq<Show>)>)
  {
    forall k1, k2 :: 0 <= k1 < k2 < |r| ==> r[k1].0 != r[k2].0
  }

  /** Every entry is a listed theatre with its non-empty list of shows of
      `movie`. */
  predicate EntriesSound(theatres: seq<Theatre>, movie: Movie, r: seq<(Theatre, seq<Show>)>)
  {
    forall k :: 0 <= k < |r| ==> r[k].0 in theatres && |r[k].1| > 0 && r[k].1 == ShowsOf(r[k].0, movie)
  }

  /** Every listed theatre with a show of `movie` is a key. */
  predicate EntriesComplete(theatres: seq<Theatre>, movie: Movie, r: seq<(Theatre, seq<Show>)>)
  {
    forall i :: 0 <= i < |theatres| && |ShowsOf(theatres[i], movie)| > 0 ==> theatres[i] in Keys(r)
  }

  /** Keys appear in the order of their first occurrence in the list. */
  predicate EntriesInListOrder(theatres: seq<Theatre>, r: seq<(Theatre, seq<Show>)>)
  {
    forall k1, k2 :: 0 <= k1 < k2 < |r| ==>
      r[k1].0 in theatres && r[k2].0 in theatres && IndexOf(theatres, r[k1].0) < IndexOf(theatres, r[k2].0)
  }

  /** One iteration of the loop: `result[theatre] = movie_shows` when the
      theatre has a matching show. A theatre that is already a key keeps its
      position, and its shows are the same ones. */
  function Step(r: seq<(Theatre, seq<Show>)>, th: Theatre, movie: Movie): seq<(Theatre, seq<Show>)>
  {
    var shows := ShowsOf(th, movie);
    if |shows| > 0 && th !in Keys(r) then r + [(th, shows)] else r
  }

  /** The dict built by the loop of `get_shows_by_movie_and_city` over a list
      of theatres, as its insertion-ordered entries: one entry per theatre
      with a show of `movie`, holding those shows, in the order the theatres
      first appear. */
  function ShowsByMovie(theatres: seq<Theatre>, movie: Movie): (r: seq<(Theatre, seq<Show>)>)
    ensures DistinctKeys(r)
    ensures EntriesSound(theatres, movie, r)
    ensures EntriesComplete(theatres, movie, r)
    ensures EntriesInListOrder(theatres, r)
    decreases |theatres|
  {
    if |theatres| == 0 then []
    else
      var front := theatres[..|theatres| - 1];
      var th := theatres[|theatres| - 1];
      assert theatres == front + [th];
      var r := ShowsByMovie(front, movie);
      StepKeepsKeysDistinct(r, th, movie);
      StepSound(front, th, movie, r);
      StepComplete(front, th, movie, r);
      StepInListOrder(front, th, movie, r);
      Step(r, th, movie)
  }

  lemma StepKeepsKeysDistinct(r: seq<(Theatre, seq<Show>)>, th: Theatre, movie: Movie)
    requires DistinctKeys(r)
    ensures DistinctKeys(Step(r, th, movie))
  {
  }

  lemma StepSound(front: seq<Theatre>, th: Theatre, movie: Movie, r: seq<(Theatre, seq<Show>)>)
    requires EntriesSound(front, movie, r)
    ensures EntriesSound(front + [th], movie, Step(r, th, movie))
  {
  }

  lemma StepComplete(front: seq<Theatre>, th: Theatre, movie: Movie, r: seq<(Theatre, seq<Show>)>)
    requires EntriesComplete(front, movie, r)
    ensures EntriesComplete(front + [th], movie, Step(r, th, movie))
  {
    var r' := Step(r, th, movie);
    assert forall x :: x in Keys(r) ==> x in Keys(r') by {
      if r' != r {
        assert Keys(r') == Keys(r) + [th];
      }
    }
    if r' != r {
      assert Keys(r') == Keys(r) + [th];
    }
  }

  lemma StepInListOrder(front: seq<Theatre>, th: Theatre, movie: Movie, r: seq<(Theatre, seq<Show>)>)
    requires EntriesComplete(front, movie, r)
    requires EntriesInListOrder(front, r)
    requires forall k :: 0 <= k < |r| ==> r[k].0 in front
    ensures EntriesInListOrder(front + [th], Step(r, th, movie))
  {
    var theatres := front + [th];
    var r' := Step(r, th, movie);
    forall k | 0 <= k < |r|
      ensures IndexOf(theatres, r[k].0) == IndexOf(front, r[k].0)
    {
      IndexOfAppend(front, th, r[k].0);
    }
    if r' != r {
      assert th !in front;
      IndexOfAppend(front, th, th);
      forall k1, k2 | 0 <= k1 < k2 < |r'|
        ensures r'[k1].0 in theatres && r'[k2].0 in theatres && IndexOf(theatres, r'[k1].0) < IndexOf(theatres, r'[k2].0)
      {
        if k2 < |r| {
          assert r'[k1] == r[k1] && r'[k2] == r[k2];
        } else {
          assert r'[k1] == r[k1] && r'[k2].0 == th;
        }
      }
    }
  }

  /** `get_shows_by_movie_and_city`, as the insertion-ordered entries of the
      dict it returns. */
  function GetShowsByMovieAndCity(tc: TheatreController, movie: Movie, city: City): (r: seq<(Theatre, seq<Show>)>)
    ensures DistinctKeys(r)
    ensures EntriesSound(TheatresIn(tc, city), movie, r)
    ensures EntriesComplete(TheatresIn(tc, city), movie, r)
    ensures EntriesInListOrder(TheatresIn(tc, city), r)
  {
    ShowsByMovie(TheatresIn(tc, city), movie)
  }

  /** Adding a theatre to a city extends that city's result by the theatre
      and its shows of the movie, when it has some and is not a key yet, and
      leaves every other city's result alone. */
  lemma ShowsAfterAddTheatre(tc: TheatreController, th: Theatre, city: City, movie: Movie)
    ensures var before := GetShowsByMovieAndCity(tc, movie, city);
      var shows := ShowsOf(th, movie);
      GetShowsByMovieAndCity(AddTheatre(tc, th, city), movie, city)
        == before + (if |shows| > 0 && th !in Keys(before) then [(th, shows)] else [])
    ensures forall c :: c != city ==>
      GetShowsByMovieAndCity(AddTheatre(tc, th, city), movie, c) == GetShowsByMovieAndCity(tc, movie, c)
  {
    var s := TheatresIn(tc, city) + [th];
    assert s[..|s| - 1] == TheatresIn(tc, city);
  }

  /** Adding the same theatre to a city twice gives the result of adding it
      once: the dict holds one entry per theatre. */
  lemma DuplicateTheatreKeptOnce(tc: TheatreController, th: Theatre, city: City, movie: Movie)
    ensures var once := AddTheatre(tc, th, city);
      GetShowsByMovieAndCity(AddTheatre(once, th, city), movie, city) == GetShowsByMovieAndCity(once, movie, city)
  {
    var once := AddTheatre(tc, th, city);
    ShowsAfterAddTheatre(once, th, city, movie);
    var s := TheatresIn(once, city);
    assert s[|s| - 1] == th;
  }

  /** The controller built by a sequence of `add_theatre` calls. */
  function AddTheatres(tc: TheatreController, adds: seq<(Theatre, City)>): TheatreController
    decreases |adds|
  {
    if |adds| == 0 then tc else AddTheatres(AddTheatre(tc, adds[0].0, adds[0].1), adds[1..])
  }

  /** The theatres of `adds` that were added for `city`, in call order. */
  function TheatresAddedFor(adds: seq<(Theatre, City)>, city: City): seq<Theatre>
    decreases |adds|
  {
    if |adds| == 0 then []
    else (if adds[0].1 == city then [adds[0].0] else []) + TheatresAddedFor(adds[1..], city)
  }

  /** After any sequence of additions, a city's theatre list is what was
      added for it in insertion order, following what it held before. */
  lemma {:induction false} TheatresByCityInInsertionOrder(tc: TheatreController, adds: seq<(Theatre, City)>, city: City)
    ensures TheatresIn(AddTheatres(tc, adds), city) == TheatresIn(tc, city) + TheatresAddedFor(adds, city)
    decreases |adds|
  {
    if |adds| > 0 {
      TheatresByCityInInsertionOrder(AddTheatre(tc, adds[0].0, adds[0].1), adds[1..], city);
    }
  }
}

=== FILE: calendar_system.dfy ===
/** The calendar: events on half-open time intervals, a per-user calendar
    that refuses conflicting events, participant lists, and daily or weekly
    recurrence. Times are whole minutes; events carry an explicit id in place
    of Python object identity. */
module Calendar {
  import opened Wrappers
  import opened Seqs
  import opened Clock

  type UserId = string

  datatype Event = Event(
    id: nat,
    title: string,
    start: int,
    end: int,
    owner: UserId,
    participants: seq<UserId>,
    recurrence: Option<string>)

  datatype Cal = Cal(user: UserId, events: seq<Event>)

  /** `Event(...)`: a new event whose only participant is its owner. */
  function NewEvent(id: nat, title: string, start: int, end: int, owner: UserId, recurrence: Option<string>): (e: Event)
    ensures e.participants == [owner] && e.owner == owner
    ensures e.id == id && e.title == title && e.start == start && e.end == end && e.recurrence == recurrence
  {
    Event(id, title, start, end, owner, [owner], recurrence)
  }

  // ---------------------------------------------------------------------
  // Participants

  predicate NoDuplicates(s: seq<UserId>)
  {
    forall i, j :: 0 <= i < j < |s| ==> s[i] != s[j]
  }

  /** `add_participant`: append `u` unless it is already there. */
  function AddParticipant(e: Event, u: UserId): (r: Event)
    ensures u in r.participants
    ensures forall x :: x in r.participants <==> x in e.participants || x == u
    ensures u in e.participants ==> r == e
    ensures u !in e.participants ==> r.participants == e.participants + [u]
    ensures NoDuplicates(e.participants) ==> NoDuplicates(r.participants)
    ensures r.(participants := e.participants) == e
  {
    if u !in e.participants then e.(participants := e.participants + [u]) else e
  }

  /** `remove_participant`: drop the first occurrence of `u`, if any. */
  function RemoveParticipant(e: Event, u: UserId): (r: Event)
    ensures u !in e.participants ==> r == e
    ensures multiset(r.participants) + (if u in e.participants then multiset{u} else multiset{}) == multiset(e.participants)
    ensures u in e.participants ==> exists i ::
      && 0 <= i < |e.participants| && e.participants[i] == u
      && (forall j :: 0 <= j < i ==> e.participants[j] != u)
      && r.participants == e.participants[..i] + e.participants[i + 1..]
    ensures NoDuplicates(e.participants) ==> u !in r.participants && NoDuplicates(r.participants)
    ensures r.(participants := e.participants) == e
  {
    RemoveFirstDropsUnique(e.participants, u);
    e.(participants := RemoveFirst(e.participants, u))
  }

  /** In a list without duplicates, removing the first `u` removes every `u`. */
  lemma RemoveFirstDropsUnique(s: seq<UserId>, u: UserId)
    ensures NoDuplicates(s) ==> u !in RemoveFirst(s, u) && NoDuplicates(RemoveFirst(s, u))
  {
    if u in s && NoDuplicates(s) {
      var i := IndexOf(s, u);
      RemoveFirstAtIndexOf(s, u);
      var r := RemoveAt(s, i);
      assert forall j :: 0 <= j < |r| ==> r[j] == s[if j < i then j else j + 1];
    }
  }

  lemma AddParticipantIdempotent(e: Event, u: UserId)
    ensures AddParticipant(AddParticipant(e, u), u) == AddParticipant(e, u)
  {
  }

  lemma NewEventHasNoDuplicates(id: nat, title: string, start: int, end: int, owner: UserId, recurrence: Option<string>)
    ensures NoDuplicates(NewEvent(id, title, start, end, owner, recurrence).participants)
  {
  }

  // ---------------------------------------------------------------------
  // Conflicts

  /** The test inside `has_conflict`, as written there. */
  predicate Conflicts(newEvent: Event, e: Event)
  {
    !(newEvent.end <= e.start || newEvent.start >= e.end)
  }

  /** The test is the intersection of half-open intervals [start, end). */
  lemma ConflictsIsIntervalOverlap(a: Event, b: Event)
    ensures Conflicts(a, b) <==> a.start < b.end && b.start < a.end
  {
  }

  lemma ConflictsSymmetric(a: Event, b: Event)
    ensures Conflicts(a, b) <==> Conflicts(b, a)
  {
  }

  /** An event ending exactly when another starts does not conflict with it. */
  lemma BackToBackDoNotConflict(a: Event, b: Event)
    requires a.end == b.start
    ensures !Conflicts(a, b) && !Conflicts(b, a)
  {
  }

  /** `has_conflict`: some event already in the list overlaps `e`. */
  function HasConflict(events: seq<Event>, e: Event): (r: bool)
    ensures r <==> exists i :: 0 <= i < |events| && Conflicts(e, events[i])
  {
    if |events| == 0 then false
    else if Conflicts(e, events[0]) then true
    else
      var rest := HasConflict(events[1..], e);
      assert forall i :: 1 <= i < |events| ==> events[i] == events[1..][i - 1];
      rest
  }

  /** No two events of the list overlap. */
  predicate PairwiseDisjoint(events: seq<Event>)
  {
    forall i, j :: 0 <= i < j < |events| ==> !Conflicts(events[i], events[j])
  }

  /** `create_event`: refuse a conflicting event, otherwise append it. */
  function CreateEvent(c: Cal, e: Event): (r: (bool, Cal))
    ensures r.0 <==> forall i :: 0 <= i < |c.events| ==> !Conflicts(e, c.events[i])
    ensures !r.0 ==> r.1 == c
    ensures r.0 ==> r.1.events == c.events + [e] && r.1.user == c.user
    ensures PairwiseDisjoint(c.events) ==> PairwiseDisjoint(r.1.events)
  {
    if HasConflict(c.events, e) then (false, c)
    else
      (true, c.(events := c.events + [e]))
  }

  /** `delete_event`: drop the first event with the same id, if any. */
  function DeleteEvent(c: Cal, e: Event): (r: Cal)
    ensures r.user == c.user
    ensures (forall i :: 0 <= i < |c.events| ==> c.events[i].id != e.id) ==> r == c
    ensures (exists i :: 0 <= i < |c.events| && c.events[i].id == e.id) ==> |r.events| == |c.events| - 1
    ensures forall x :: x in r.events ==> x in c.events
    ensures PairwiseDisjoint(c.events) ==> PairwiseDisjoint(r.events)
    ensures (exists i :: 0 <= i < |c.events| && c.events[i].id == e.id) ==> exists i ::
      && 0 <= i < |c.events| && c.events[i].id == e.id
      && (forall j :: 0 <= j < i ==> c.events[j].id != e.id)
      && r.events == c.events[..i] + c.events[i + 1..]
  {
    match FindFirst(c.events, (x: Event) => x.id == e.id)
    case None => c
    case Some(i) =>
      var s := c.events;
      var s' := RemoveAt(s, i);
      assert forall j :: 0 <= j < |s'| ==> s'[j] == s[if j < i then j else j + 1];
      assert s' == s[..i] + s[i + 1..];
      c.(events := s')
  }

  /** Deleting an event right after creating it, when no event had its id,
      restores the calendar. */
  lemma DeleteUndoesCreate(c: Cal, e: Event)
    requires forall j :: 0 <= j < |c.events| ==> c.events[j].id != e.id
    requires CreateEvent(c, e).0
    ensures DeleteEvent(CreateEvent(c, e).1, e) == c
  {
    var s := c.events + [e];
    var i := |c.events|;
    assert s[i].id == e.id;
    assert forall j :: 0 <= j < i ==> s[j].id != e.id;
    assert s[..i] + s[i + 1..] == c.events;
  }

  /** Events entered only through `create_event` never overlap. */
  function CreateAll(c: Cal, es: seq<Event>): Cal
    decreases |es|
  {
    if |es| == 0 then c else CreateAll(CreateEvent(c, es[0]).1, es[1..])
  }

  lemma {:induction false} CreateAllPairwiseDisjoint(c: Cal, es: seq<Event>)
    requires PairwiseDisjoint(c.events)
    ensures PairwiseDisjoint(CreateAll(c, es).events)
    decreases |es|
  {
    if |es| > 0 {
      CreateAllPairwiseDisjoint(CreateEvent(c, es[0]).1, es[1..]);
    }
  }

  // ---------------------------------------------------------------------
  // Recurrence

  datatype Recurrence = Daily | Weekly

  /** `RecurrenceFactory.get_strategy`. */
  function GetStrategy(recurrence: Option<string>): (r: Option<Recurrence>)
    ensures r == Some(Daily) <==> recurrence == Some("DAILY")
    ensures r == Some(Weekly) <==> recurrence == Some("WEEKLY")
    ensures r.None? <==> recurrence != Some("DAILY") && recurrence != Some("WEEKLY")
  {
    if recurrence == Some("DAILY") then Some(Daily)
    else if recurrence == Some("WEEKLY") then Some(Weekly)
    else None
  }

  function Period(r: Recurrence): int
  {
    match r
    case Daily => MinutesPerDay
    case Weekly => MinutesPerWeek
  }

  /** `get_next_occurrence`: a new event (id `newId`) one day or one week
      later, with the same title, owner, recurrence and duration. Being a new
      `Event`, its only participant is the owner. */
  function NextOccurrence(r: Recurrence, e: Event, newId: nat): (n: Event)
    ensures r.Daily? ==> n.start == e.start + MinutesPerDay
    ensures r.Weekly? ==> n.start == e.start + MinutesPerWeek
    ensures n.end - n.start == e.end - e.start
    ensures n.title == e.title && n.owner == e.owner && n.recurrence == e.recurrence
    ensures n.participants == [e.owner] && n.id == newId
  {
    NewEvent(newId, e.title, e.start + Period(r), e.end + Period(r), e.owner, e.recurrence)
  }

  /** A daily event whose length is at most one day never conflicts with its
      next occurrence, so both fit in one calendar. */
  lemma NextDailyDoesNotConflict(e: Event, newId: nat)
    requires e.end - e.start <= MinutesPerDay
    ensures !Conflicts(NextOccurrence(Daily, e, newId), e)
  {
  }

  // ---------------------------------------------------------------------
  // Agenda

  /** The length of the agenda window of a period name, if it names one. */
  function Window(period: string): Option<int>
  {
    if period == "DAILY" then Some(MinutesPerDay)
    else if period == "WEEKLY" then Some(MinutesPerWeek)
    else if period == "MONTHLY" then Some(30 * MinutesPerDay)
    else None
  }

  /** Whether an event starts within `w` minutes from `now`. */
  function StartsWithin(now: int, w: int): Event -> bool
  {
    (e: Event) => now <= e.start <= now + w
  }

  /** `list_events` with the clock reading `now` passed in: the events
      starting within the period's window, or None for an unknown period. */
  function ListEvents(c: Cal, period: string, now: int): (r: Option<seq<Event>>)
    ensures r.None? <==> period != "DAILY" && period != "WEEKLY" && period != "MONTHLY"
    ensures r.Some? ==>
      var window := if period == "DAILY" then MinutesPerDay
                    else if period == "WEEKLY" then MinutesPerWeek
                    else 30 * MinutesPerDay;
      && (forall e :: e in r.value <==> e in c.events && now <= e.start <= now + window)
      && |r.value| <= |c.events|
  {
    match Window(period)
    case None => None
    case Some(w) => Some(Filter(c.events, StartsWithin(now, w)))
  }

  /** The agenda lists events in calendar order: after a successful
      `create_event`, it is the earlier agenda followed by the new event when
      that event falls in the window. */
  lemma ListEventsAfterCreate(c: Cal, e: Event, period: string, now: int)
    requires CreateEvent(c, e).0
    ensures var r := ListEvents(CreateEvent(c, e).1, period, now);
      && (r.None? <==> ListEvents(c, period, now).None?)
      && (r.Some? ==>
            var added := if StartsWithin(now, Window(period).value)(e) then [e] else [];
            r.value == ListEvents(c, period, now).value + added)
  {
    if Window(period).Some? {
      FilterConcat(c.events, [e], StartsWithin(now, Window(period).value));
    }
  }
}

=== FILE: clock.dfy ===
/** Whole-minute time shared by the calendar and the flight list: the
    Python `datetime` and `timedelta` values become minute counts. */
module Clock {
  const MinutesPerDay: nat := 24 * 60
  const MinutesPerWeek: nat := 7 * MinutesPerDay

  /** The calendar day of a time, as `datetime.date()` gives it. */
  function Day(t: nat): nat
  {
    t / MinutesPerDay
  }
}

=== FILE: message_broker.dfy ===
/** The in-memory partitioned message queue: topics made of partitions, each
    partition an append-only log with one read cursor per subscriber, and two
    strategies that choose the partition a published message goes to.
    Threads, wake-up events and locks are not modelled: every operation is one
    atomic state transition. */
module Broker {
  import opened Wrappers
  import opened Seqs

  type SubscriberId = string

  datatype Message = Message(content: string)

  /** One shard of a topic. `offsets` is Python's `defaultdict(int)`: a
      subscriber without an entry reads as offset 0. `subscribers` is the
      notification list, which may hold the same subscriber more than once. */
  datatype Partition = Partition(
    id: nat,
    messages: seq<Message>,
    offsets: map<SubscriberId, nat>,
    subscribers: seq<SubscriberId>)

  datatype Topic = Topic(name: string, partitions: seq<Partition>)

  datatype BrokerError = NoPartitions

  /** The cursor of `s` on `p`, with the default-dict reading of a missing key. */
  function Offset(p: Partition, s: SubscriberId): nat
  {
    if s in p.offsets then p.offsets[s] else 0
  }

  /** No cursor runs past the end of its log. */
  predicate ValidPartition(p: Partition)
  {
    forall s :: s in p.offsets ==> p.offsets[s] <= |p.messages|
  }

  /** Partition ids are the positions `0..n-1` and every partition is valid. */
  predicate ValidTopic(t: Topic)
  {
    forall i :: 0 <= i < |t.partitions| ==>
      t.partitions[i].id == i && ValidPartition(t.partitions[i])
  }

  /** `Topic(name, count)`: one fresh partition per id in `range(count)`,
      so a count below one yields a topic without partitions. */
  function NewTopic(name: string, count: int): (t: Topic)
    ensures t.name == name
    ensures |t.partitions| == if count < 0 then 0 else count
    ensures forall i :: 0 <= i < |t.partitions| ==>
      t.partitions[i].id == i && t.partitions[i].messages == [] &&
      t.partitions[i].subscribers == [] &&
      forall s :: Offset(t.partitions[i], s) == 0
    ensures ValidTopic(t)
  {
    var n := if count < 0 then 0 else count;
    Topic(name, seq(n, i requires 0 <= i < n => Partition(i, [], map[], [])))
  }

  // ---------------------------------------------------------------------
  // Partition log

  /** `add_message`: the log grows by `m` at its end; cursors stay put. */
  function AddMessage(p: Partition, m: Message): (r: Partition)
    ensures |r.messages| == |p.messages| + 1
    ensures r.messages[..|p.messages|] == p.messages
    ensures r.messages[|p.messages|] == m
    ensures r.id == p.id && r.offsets == p.offsets && r.subscribers == p.subscribers
    ensures forall s :: Offset(r, s) == Offset(p, s)
    ensures ValidPartition(p) ==> ValidPartition(r)
  {
    p.(messages := p.messages + [m])
  }

  /** `register_subscriber`: the cursor of `s` is set to 0 whether or not `s`
      was registered before, and `s` joins the notification list again. */
  function RegisterSubscriber(p: Partition, s: SubscriberId): (r: Partition)
    ensures Offset(r, s) == 0 && s in r.offsets
    ensures forall t :: t != s ==> Offset(r, t) == Offset(p, t) && (t in r.offsets <==> t in p.offsets)
    ensures r.subscribers == p.subscribers + [s]
    ensures r.id == p.id && r.messages == p.messages
    ensures ValidPartition(p) ==> ValidPartition(r)
  {
    p.(offsets := p.offsets[s := 0], subscribers := p.subscribers + [s])
  }

  /** `get_next_message`: returns the message under the cursor of `s` and
      moves that cursor one step, or returns None once `s` has caught up.
      As with the default dict, the read leaves an entry for `s` behind. */
  function GetNextMessage(p: Partition, s: SubscriberId): (r: (Option<Message>, Partition))
    ensures Offset(p, s) < |p.messages| ==>
      r.0 == Some(p.messages[Offset(p, s)]) && Offset(r.1, s) == Offset(p, s) + 1
    ensures Offset(p, s) >= |p.messages| ==> r.0 == None && Offset(r.1, s) == Offset(p, s)
    ensures s in r.1.offsets
    ensures forall t :: t != s ==> Offset(r.1, t) == Offset(p, t) && (t in r.1.offsets <==> t in p.offsets)
    ensures r.1.id == p.id && r.1.messages == p.messages && r.1.subscribers == p.subscribers
    ensures ValidPartition(p) ==> ValidPartition(r.1)
  {
    var idx := Offset(p, s);
    if idx < |p.messages| then
      (Some(p.messages[idx]), p.(offsets := p.offsets[s := idx + 1]))
    else
      (None, p.(offsets := p.offsets[s := idx]))
  }

  /** The inner loop of `consume`: read until `get_next_message` returns None.
      The messages read are exactly the log from the cursor on, in log order. */
  method Drain(p: Partition, s: SubscriberId) returns (r: Partition, read: seq<Message>)
    requires ValidPartition(p)
    ensures read == p.messages[Offset(p, s)..]
    ensures Offset(p, s) == 0 ==> read == p.messages
    ensures Offset(r, s) == |p.messages|
    ensures forall t :: t != s ==> Offset(r, t) == Offset(p, t)
    ensures r.messages == p.messages && r.subscribers == p.subscribers
    ensures ValidPartition(r)
  {
    r := p;
    read := [];
    var done := false;
    while !done
      invariant ValidPartition(r)
      invariant r.messages == p.messages && r.subscribers == p.subscribers
      invariant Offset(p, s) <= Offset(r, s) <= |p.messages|
      invariant read == p.messages[Offset(p, s)..Offset(r, s)]
      invariant done ==> Offset(r, s) == |p.messages|
      invariant forall t :: t != s ==> Offset(r, t) == Offset(p, t)
      decreases |p.messages| - Offset(r, s), !done
    {
      var next := GetNextMessage(r, s);
      match next.0
      case Some(m) =>
        read := read + [m];
        r := next.1;
      case None =>
        r := next.1;
        done := true;
    }
  }

  // ---------------------------------------------------------------------
  // Interleavings of appends, registrations and reads

  datatype Op = Append(m: Message) | Register(s: SubscriberId) | Read(s: SubscriberId)

  /** A partition together with, per subscriber, the messages it has received
      since it was last registered (the history of observations). */
  datatype Observed = Observed(p: Partition, seen: map<SubscriberId, seq<Message>>)

  function Seen(o: Observed, s: SubscriberId): seq<Message>
  {
    if s in o.seen then o.seen[s] else []
  }

  function Apply(o: Observed, op: Op): Observed
  {
    match op
    case Append(m) => o.(p := AddMessage(o.p, m))
    case Register(s) => Observed(RegisterSubscriber(o.p, s), o.seen[s := []])
    case Read(s) =>
      var (msg, p') := GetNextMessage(o.p, s);
      match msg
      case Some(m) => Observed(p', o.seen[s := Seen(o, s) + [m]])
      case None => Observed(p', o.seen)
  }

  function Run(o: Observed, ops: seq<Op>): Observed
    decreases |ops|
  {
    if |ops| == 0 then o else Run(Apply(o, ops[0]), ops[1..])
  }

  /** Every subscriber has received exactly the first `Offset` messages of the
      log, in append order, and no cursor is past the end of the log. */
  ghost predicate Consistent(o: Observed)
  {
    && ValidPartition(o.p)
    && forall s :: Offset(o.p, s) <= |o.p.messages| && Seen(o, s) == o.p.messages[..Offset(o.p, s)]
  }

  lemma ApplyPreservesConsistent(o: Observed, op: Op)
    requires Consistent(o)
    ensures Consistent(Apply(o, op))
  {
    var o' := Apply(o, op);
    match op
    case Append(m) =>
      forall s ensures Offset(o'.p, s) <= |o'.p.messages| && Seen(o', s) == o'.p.messages[..Offset(o'.p, s)] {
        assert o'.p.messages[..Offset(o'.p, s)] == o.p.messages[..Offset(o.p, s)];
      }
    case Register(s) =>
    case Read(s) =>
      var k := Offset(o.p, s);
      if k < |o.p.messages| {
        assert o'.p.messages[..k + 1] == o.p.messages[..k] + [o.p.messages[k]];
      }
  }

  /** Per-partition order preservation under any interleaving: starting from
      an empty partition, after any sequence of appends, registrations and
      reads, each subscriber has received a prefix of the log, in log order,
      without gaps or repetitions since its last registration. */
  lemma {:induction false} RunPreservesConsistent(o: Observed, ops: seq<Op>)
    requires Consistent(o)
    ensures Consistent(Run(o, ops))
    decreases |ops|
  {
    if |ops| > 0 {
      ApplyPreservesConsistent(o, ops[0]);
      RunPreservesConsistent(Apply(o, ops[0]), ops[1..]);
    }
  }

  lemma EmptyPartitionConsistent(pid: nat)
    ensures Consistent(Observed(Partition(pid, [], map[], []), map[]))
  {
  }

  // ---------------------------------------------------------------------
  // Partition selection

  /** The two publish strategies. The round-robin strategy keeps a counter per
      topic name (a `defaultdict(int)`); the random one keeps nothing. */
  datatype Strategy = RandomChoice | RoundRobin(counter: map<string, nat>)

  function Counter(st: Strategy, name: string): nat
  {
    if st.RoundRobin? && name in st.counter then st.counter[name] else 0
  }

  /** `choose_partition`, returning the chosen partition's index and the
      strategy's next state. `draw` is the value the injected random source
      supplies; it is reduced into range, as `random.choice` does with its own
      draw. An empty topic fails: the round-robin strategy divides by zero
      and `random.choice` raises on an empty list. */
  function ChoosePartition(st: Strategy, t: Topic, draw: nat): (r: Result<(nat, Strategy), BrokerError>)
    ensures r.Success? <==> |t.partitions| >= 1
    ensures r.Success? ==> r.value.0 < |t.partitions|
    ensures r.Success? && st.RandomChoice? ==> r.value.1 == st && r.value.0 == draw % |t.partitions|
    ensures r.Success? && st.RoundRobin? ==>
      && r.value.1.RoundRobin?
      && r.value.0 == Counter(st, t.name) % |t.partitions|
      && Counter(r.value.1, t.name) == Counter(st, t.name) + 1
      && forall other :: other != t.name ==> Counter(r.value.1, other) == Counter(st, other)
  {
    var n := |t.partitions|;
    if n == 0 then Failure(NoPartitions)
    else
      match st
      case RandomChoice => Success((draw % n, st))
      case RoundRobin(counter) =>
        var c := Counter(st, t.name);
        Success((c % n, RoundRobin(counter[t.name := c + 1])))
  }

  /** Every partition of a non-empty topic is reachable by the random choice. */
  lemma RandomReachesEveryPartition(t: Topic, i: nat)
    requires i < |t.partitions|
    ensures ChoosePartition(RandomChoice, t, i) == Success((i, RandomChoice))
  {
  }

  /** The partitions chosen by `k` successive round-robin calls on one topic. */
  function RoundRobinPicks(st: Strategy, t: Topic, k: nat): (seq<nat>, Strategy)
    requires st.RoundRobin? && |t.partitions| >= 1
    decreases k
  {
    if k == 0 then ([], st)
    else
      var (i, st') := ChoosePartition(st, t, 0).value;
      var (rest, last) := RoundRobinPicks(st', t, k - 1);
      ([i] + rest, last)
  }

  /** The j-th call for a topic returns partition `(c + j) mod n`, where `c`
      is the counter before the first call; the counter grows by exactly one
      per call and the counters of other topic names never move. */
  lemma {:induction false} RoundRobinCycles(st: Strategy, t: Topic, k: nat)
    requires st.RoundRobin? && |t.partitions| >= 1
    ensures var (picks, st') := RoundRobinPicks(st, t, k);
      && |picks| == k
      && (forall j :: 0 <= j < k ==> picks[j] == (Counter(st, t.name) + j) % |t.partitions|)
      && st'.RoundRobin?
      && Counter(st', t.name) == Counter(st, t.name) + k
      && forall other :: other != t.name ==> Counter(st', other) == Counter(st, other)
    decreases k
  {
    if k > 0 {
      var (i, st1) := ChoosePartition(st, t, 0).value;
      RoundRobinCycles(st1, t, k - 1);
    }
  }

  /** From a fresh strategy the k-th call (0-based) picks partition `k mod n`. */
  lemma FreshRoundRobinPicksModulo(t: Topic, k: nat)
    requires |t.partitions| >= 1
    ensures var picks := RoundRobinPicks(RoundRobin(map[]), t, k).0;
      |picks| == k && forall j :: 0 <= j < k ==> picks[j] == j % |t.partitions|
  {
    RoundRobinCycles(RoundRobin(map[]), t, k);
  }

  // ---------------------------------------------------------------------
  // Publisher and subscriber registration

  /** `Publisher.publish`: choose a partition, then append the message to it.
      Returns the new topic, the strategy's next state and the chosen index. */
  function Publish(st: Strategy, t: Topic, content: string, draw: nat): (r: Result<(Topic, Strategy, nat), BrokerError>)
    ensures r.Success? <==> |t.partitions| >= 1
    ensures r.Success? ==>
      var (t', _, i) := r.value;
      && i < |t.partitions|
      && t'.name == t.name
      && |t'.partitions| == |t.partitions|
      && t'.partitions[i] == AddMessage(t.partitions[i], Message(content))
      && t'.partitions[i].messages == t.partitions[i].messages + [Message(content)]
      && (forall j :: 0 <= j < |t.partitions| && j != i ==> t'.partitions[j] == t.partitions[j])
    ensures r.Success? ==> r.value.2 == ChoosePartition(st, t, draw).value.0
    ensures r.Success? ==> r.value.1 == ChoosePartition(st, t, draw).value.1
    ensures r.Success? && ValidTopic(t) ==> ValidTopic(r.value.0)
  {
    match ChoosePartition(st, t, draw)
    case Failure(e) => Failure(e)
    case Success((i, st')) =>
      var p' := AddMessage(t.partitions[i], Message(content));
      Success((t.(partitions := t.partitions[i := p']), st', i))
  }

  /** `Subscriber.subscribe`: register on every partition of the topic. */
  function Subscribe(t: Topic, s: SubscriberId): (r: Topic)
    ensures r.name == t.name && |r.partitions| == |t.partitions|
    ensures forall i :: 0 <= i < |t.partitions| ==>
      && Offset(r.partitions[i], s) == 0
      && r.partitions[i].messages == t.partitions[i].messages
      && r.partitions[i].id == t.partitions[i].id
      && r.partitions[i].subscribers == t.partitions[i].subscribers + [s]
      && forall u :: u != s ==> Offset(r.partitions[i], u) == Offset(t.partitions[i], u)
    ensures ValidTopic(t) ==> ValidTopic(r)
  {
    t.(partitions := seq(|t.partitions|, i requires 0 <= i < |t.partitions| => RegisterSubscriber(t.partitions[i], s)))
  }

  /** Publishing four messages round-robin to a two-partition topic puts the
      first and third in partition 0 and the second and fourth in partition 1. */
  lemma RoundRobinScenario()
    ensures
      var t0 := NewTopic("orders", 2);
      var r1 := Publish(RoundRobin(map[]), t0, "a", 0);
      r1.Success? &&
      var r2 := Publish(r1.value.1, r1.value.0, "b", 0);
      r2.Success? &&
      var r3 := Publish(r2.value.1, r2.value.0, "c", 0);
      r3.Success? &&
      var r4 := Publish(r3.value.1, r3.value.0, "d", 0);
      && r4.Success?
      && r4.value.0.partitions[0].messages == [Message("a"), Message("c")]
      && r4.value.0.partitions[1].messages == [Message("b"), Message("d")]
  {
    var t0 := NewTopic("orders", 2);
    var r1 := Publish(RoundRobin(map[]), t0, "a", 0);
    assert r1.value.2 == 0;
    var r2 := Publish(r1.value.1, r1.value.0, "b", 0);
    assert r2.value.2 == 1;
    var r3 := Publish(r2.value.1, r2.value.0, "c", 0);
    assert r3.value.2 == 0;
    var r4 := Publish(r3.value.1, r3.value.0, "d", 0);
    assert r4.value.2 == 1;
  }
}

=== FILE: parking_lot.dfy ===
/** The parking-lot allocator: per spot type, a list of free spots, a list of
    occupied spots and a display-board count, with entry taking the first free
    spot of the vehicle's type and exit handing it back. Spots are identified
    by their id string instead of Python object identity; the payment outcome
    is a boolean input. */
module Parking {
  import opened Wrappers
  import opened Seqs

  datatype SpotType = Compact | Mini | Large

  datatype Vehicle = Car(id: string) | Motorbike(id: string) | Truck(id: string)

  /** `CompactParkingSpot`, `MiniParkingSpot` and `LargeParkingSpot`, told
      apart by `kind`. */
  datatype Spot = Spot(kind: SpotType, id: string, floor: int, amount: int, isFree: bool)

  datatype Ticket = Ticket(vehicle: Vehicle, spot: Spot)

  /** The three `defaultdict`s of `ParkingLot` and its `DisplayBoard`. */
  datatype Lot = Lot(
    name: string,
    free: map<SpotType, seq<Spot>>,
    occupied: map<SpotType, seq<Spot>>,
    board: map<SpotType, int>)

  datatype ParkingError = SpotNotOccupied

  function Free(l: Lot, t: SpotType): seq<Spot>
  {
    if t in l.free then l.free[t] else []
  }

  function Occupied(l: Lot, t: SpotType): seq<Spot>
  {
    if t in l.occupied then l.occupied[t] else []
  }

  function Count(l: Lot, t: SpotType): int
  {
    if t in l.board then l.board[t] else 0
  }

  /** `get_supported_spot` of each vehicle kind. */
  function SupportedSpot(v: Vehicle): (t: SpotType)
    ensures v.Car? <==> t == Compact
    ensures v.Motorbike? <==> t == Mini
    ensures v.Truck? <==> t == Large
  {
    match v
    case Car(_) => Compact
    case Motorbike(_) => Mini
    case Truck(_) => Large
  }

  /** `ParkingSpotService.create`: a free spot of the requested kind. */
  function CreateSpot(kind: SpotType, id: string, floor: int, amount: int): (s: Spot)
    ensures s.kind == kind && s.id == id && s.floor == floor && s.amount == amount
    ensures s.isFree
  {
    Spot(kind, id, floor, amount, true)
  }

  function EmptyLot(name: string): Lot
  {
    Lot(name, map[], map[], map[])
  }

  /** `DisplayBoard.change`: add `delta` to the count of one type. */
  function ChangeBoard(board: map<SpotType, int>, t: SpotType, delta: int): (r: map<SpotType, int>)
    ensures t in r && r[t] == (if t in board then board[t] else 0) + delta
    ensures forall u :: u != t ==> (u in r <==> u in board) && (u in board ==> r[u] == board[u])
  {
    board[t := (if t in board then board[t] else 0) + delta]
  }

  /** Two lots agree on everything kept for spot type `t`. */
  predicate SameFor(l: Lot, l': Lot, t: SpotType)
  {
    Free(l', t) == Free(l, t) && Occupied(l', t) == Occupied(l, t) && Count(l', t) == Count(l, t)
  }

  // ---------------------------------------------------------------------
  // The bookkeeping invariant

  predicate DistinctIds(s: seq<Spot>)
  {
    forall i, j :: 0 <= i < j < |s| ==> s[i].id != s[j].id
  }

  predicate DisjointIds(a: seq<Spot>, b: seq<Spot>)
  {
    forall i, j :: 0 <= i < |a| && 0 <= j < |b| ==> a[i].id != b[j].id
  }

  /** For one spot type: the board shows the length of the free list, the
      free list holds only free spots and the occupied list only taken ones,
      and no spot (by id) appears twice or in both lists. */
  predicate TypeInvariant(l: Lot, t: SpotType)
  {
    && Count(l, t) == |Free(l, t)|
    && (forall i :: 0 <= i < |Free(l, t)| ==> Free(l, t)[i].isFree)
    && (forall i :: 0 <= i < |Occupied(l, t)| ==> !Occupied(l, t)[i].isFree)
    && DistinctIds(Free(l, t))
    && DistinctIds(Occupied(l, t))
    && DisjointIds(Free(l, t), Occupied(l, t))
  }

  predicate Invariant(l: Lot)
  {
    forall t :: TypeInvariant(l, t)
  }

  lemma EmptyLotInvariant(name: string)
    ensures Invariant(EmptyLot(name))
  {
  }

  // ---------------------------------------------------------------------
  // Operations

  /** `ParkingLot.add_parking_spot`: append to the free list of `kind` and
      raise that type's board count by one. */
  function AddParkingSpot(l: Lot, kind: SpotType, spot: Spot): (r: Lot)
    ensures Free(r, kind) == Free(l, kind) + [spot]
    ensures Occupied(r, kind) == Occupied(l, kind)
    ensures Count(r, kind) == Count(l, kind) + 1
    ensures forall t :: t != kind ==> SameFor(l, r, t)
  {
    l.(free := l.free[kind := Free(l, kind) + [spot]],
       board := ChangeBoard(l.board, kind, 1))
  }

  /** `NearestFirstStrategy.find_parking_spot`: the position of the first
      free spot in the free list of `t`, if any. */
  function FindParkingSpot(l: Lot, t: SpotType): (r: Option<nat>)
    ensures r.Some? ==> r.value < |Free(l, t)| && Free(l, t)[r.value].isFree
    ensures r.Some? ==> forall j :: 0 <= j < r.value ==> !Free(l, t)[j].isFree
    ensures r.None? <==> forall j :: 0 <= j < |Free(l, t)| ==> !Free(l, t)[j].isFree
  {
    FindFirst(Free(l, t), (s: Spot) => s.isFree)
  }

  /** `ParkingService.entry`: with no free spot, no ticket and no change;
      otherwise the spot is marked taken, moved from the free list to the end
      of the occupied list, and the board count drops by one. */
  function Entry(l: Lot, v: Vehicle): (r: Option<(Ticket, Lot)>)
    ensures r.None? <==> FindParkingSpot(l, SupportedSpot(v)).None?
    ensures r.Some? ==>
      var t := SupportedSpot(v);
      var i := FindParkingSpot(l, t).value;
      var (ticket, l') := r.value;
      && ticket.vehicle == v
      && ticket.spot == Free(l, t)[i].(isFree := false)
      && Free(l', t) == RemoveAt(Free(l, t), i)
      && Occupied(l', t) == Occupied(l, t) + [ticket.spot]
      && Count(l', t) == Count(l, t) - 1
      && forall u :: u != t ==> SameFor(l, l', u)
  {
    var t := SupportedSpot(v);
    match FindParkingSpot(l, t)
    case None => None
    case Some(i) =>
      var spot := Free(l, t)[i].(isFree := false);
      var l' := l.(board := ChangeBoard(l.board, t, -1),
                   occupied := l.occupied[t := Occupied(l, t) + [spot]],
                   free := l.free[t := RemoveAt(Free(l, t), i)]);
      Some((Ticket(v, spot), l'))
  }

  /** Position of the spot with id `id` in a list. */
  function IndexOfId(s: seq<Spot>, id: string): (r: Option<nat>)
    ensures r.Some? ==> r.value < |s| && s[r.value].id == id
    ensures r.None? <==> forall j :: 0 <= j < |s| ==> s[j].id != id
  {
    FindFirst(s, (x: Spot) => x.id == id)
  }

  /** `ParkingService.exit`. A refused payment changes nothing. A paid exit
      marks the spot free, moves it from the occupied list to the end of the
      free list and raises the board count; a ticket whose spot is not in the
      occupied list fails, where Python's `list.remove` raises. */
  function Exit(l: Lot, ticket: Ticket, paid: bool): (r: Result<Lot, ParkingError>)
    ensures !paid ==> r == Success(l)
    ensures paid ==> (r.Failure? <==> IndexOfId(Occupied(l, SupportedSpot(ticket.vehicle)), ticket.spot.id).None?)
    ensures paid && r.Success? ==>
      var t := SupportedSpot(ticket.vehicle);
      var j := IndexOfId(Occupied(l, t), ticket.spot.id).value;
      var l' := r.value;
      && Occupied(l', t) == RemoveAt(Occupied(l, t), j)
      && Free(l', t) == Free(l, t) + [Occupied(l, t)[j].(isFree := true)]
      && Count(l', t) == Count(l, t) + 1
      && forall u :: u != t ==> SameFor(l, l', u)
  {
    if !paid then Success(l)
    else
      var t := SupportedSpot(ticket.vehicle);
      match IndexOfId(Occupied(l, t), ticket.spot.id)
      case None => Failure(SpotNotOccupied)
      case Some(j) =>
        var spot := Occupied(l, t)[j].(isFree := true);
        Success(l.(occupied := l.occupied[t := RemoveAt(Occupied(l, t), j)],
                   free := l.free[t := Free(l, t) + [spot]],
                   board := ChangeBoard(l.board, t, 1)))
  }

  // ---------------------------------------------------------------------
  // Invariant preservation

  /** Adding a free spot whose id is new to its type keeps the invariant. */
  lemma AddPreservesInvariant(l: Lot, kind: SpotType, spot: Spot)
    requires Invariant(l)
    requires spot.isFree
    requires forall i :: 0 <= i < |Free(l, kind)| ==> Free(l, kind)[i].id != spot.id
    requires forall i :: 0 <= i < |Occupied(l, kind)| ==> Occupied(l, kind)[i].id != spot.id
    ensures Invariant(AddParkingSpot(l, kind, spot))
  {
    var r := AddParkingSpot(l, kind, spot);
    forall t ensures TypeInvariant(r, t) {
      if t != kind {
        assert SameFor(l, r, t);
        assert TypeInvariant(l, t);
      } else {
        assert TypeInvariant(l, t);
      }
    }
  }

  /** Under the invariant every spot in a free list is free, so entry fails
      exactly when the vehicle's free list is empty, and takes its head. */
  lemma EntryTakesHead(l: Lot, v: Vehicle)
    requires Invariant(l)
    ensures Entry(l, v).None? <==> |Free(l, SupportedSpot(v))| == 0
    ensures Entry(l, v).Some? ==> FindParkingSpot(l, SupportedSpot(v)) == Some(0)
  {
    assert TypeInvariant(l, SupportedSpot(v));
  }

  lemma EntryPreservesInvariant(l: Lot, v: Vehicle)
    requires Invariant(l)
    ensures Entry(l, v).Some? ==> Invariant(Entry(l, v).value.1)
  {
    if Entry(l, v).Some? {
      var t := SupportedSpot(v);
      var i := FindParkingSpot(l, t).value;
      var (ticket, l') := Entry(l, v).value;
      var F, O := Free(l, t), Occupied(l, t);
      var F', O' := Free(l', t), Occupied(l', t);
      assert TypeInvariant(l, t);
      forall a, b | 0 <= a < |F'| && 0 <= b < |O'| ensures F'[a].id != O'[b].id {
        var a0 := if a < i then a else a + 1;
        assert F'[a] == F[a0];
        if b == |O| {
          assert O'[b].id == F[i].id;
        } else {
          assert O'[b] == O[b];
        }
      }
      forall a, b | 0 <= a < b < |F'| ensures F'[a].id != F'[b].id {
        var a0 := if a < i then a else a + 1;
        var b0 := if b < i then b else b + 1;
        assert F'[a] == F[a0] && F'[b] == F[b0];
      }
      forall a, b | 0 <= a < b < |O'| ensures O'[a].id != O'[b].id {
        assert O'[a] == O[a];
        if b == |O| {
          assert O'[b].id == F[i].id;
        } else {
          assert O'[b] == O[b];
        }
      }
      forall a | 0 <= a < |F'| ensures F'[a].isFree {
        var a0 := if a < i then a else a + 1;
        assert F'[a] == F[a0];
      }
      forall u ensures TypeInvariant(l', u) {
        if u != t {
          assert SameFor(l, l', u);
          assert TypeInvariant(l, u);
        }
      }
    }
  }

  lemma ExitPreservesInvariant(l: Lot, ticket: Ticket, paid: bool)
    requires Invariant(l)
    ensures Exit(l, ticket, paid).Success? ==> Invariant(Exit(l, ticket, paid).value)
  {
    var r := Exit(l, ticket, paid);
    if paid && r.Success? {
      var t := SupportedSpot(ticket.vehicle);
      var j := IndexOfId(Occupied(l, t), ticket.spot.id).value;
      var l' := r.value;
      var F, O := Free(l, t), Occupied(l, t);
      var F', O' := Free(l', t), Occupied(l', t);
      assert TypeInvariant(l, t);
      forall a, b | 0 <= a < |F'| && 0 <= b < |O'| ensures F'[a].id != O'[b].id {
        var b0 := if b < j then b else b + 1;
        assert O'[b] == O[b0];
        if a == |F| {
          assert F'[a].id == O[j].id;
        } else {
          assert F'[a] == F[a];
        }
      }
      forall a, b | 0 <= a < b < |O'| ensures O'[a].id != O'[b].id {
        var a0 := if a < j then a else a + 1;
        var b0 := if b < j then b else b + 1;
        assert O'[a] == O[a0] && O'[b] == O[b0];
      }
      forall a, b | 0 <= a < b < |F'| ensures F'[a].id != F'[b].id {
        assert F'[a] == F[a];
        if b == |F| {
          assert F'[b].id == O[j].id;
        } else {
          assert F'[b] == F[b];
        }
      }
      forall a | 0 <= a < |O'| ensures !O'[a].isFree {
        var a0 := if a < j then a else a + 1;
        assert O'[a] == O[a0];
      }
      forall u ensures TypeInvariant(l', u) {
        if u != t {
          assert SameFor(l, l', u);
          assert TypeInvariant(l, u);
        }
      }
    }
  }

  /** An exit with the ticket of the latest entry undoes that entry's move
      for the spot: the spot is back in the free list and on the board. */
  lemma EntryThenExitRestoresCount(l: Lot, v: Vehicle)
    requires Invariant(l)
    requires Entry(l, v).Some?
    ensures var (ticket, l1) := Entry(l, v).value;
      var t := SupportedSpot(v);
      && Exit(l1, ticket, true).Success?
      && Count(Exit(l1, ticket, true).value, t) == Count(l, t)
      && |Free(Exit(l1, ticket, true).value, t)| == |Free(l, t)|
      && Occupied(Exit(l1, ticket, true).value, t) == Occupied(l, t)
  {
    var (ticket, l1) := Entry(l, v).value;
    var t := SupportedSpot(v);
    EntryPreservesInvariant(l, v);
    assert TypeInvariant(l1, t);
    var O1 := Occupied(l1, t);
    var k := |O1| - 1;
    assert O1[k].id == ticket.spot.id;
    var j := IndexOfId(O1, ticket.spot.id).value;
    assert j == k;
    assert RemoveAt(O1, k) == Occupied(l, t);
  }
}

=== FILE: pizza_builder.dfy ===
/** The pizza builder: two base pizzas in a plain, New York or Chicago style,
    produced by a factory per style, and decorators that add a topping or a
    size to a pizza's cost and description. The decorator chain is a
    recursive datatype; `prepare` and `bake` only print and are left out.
    Case conversion follows Python's `str.lower` and `str.title` on ASCII
    letters and leaves every other character alone. */
module Pizza {
  import opened Wrappers

  datatype Kind = Margherita | Farmhouse

  /** The plain base classes and their New York and Chicago subclasses. */
  datatype Style = Plain | NewYork | Chicago

  /** A base pizza wrapped in decorators; `Sized` holds the size already
      lower-cased, as the `Size` constructor stores it. */
  datatype Pizza =
    | Base(style: Style, kind: Kind)
    | Cheese(inner: Pizza)
    | Jalapenos(inner: Pizza)
    | Olives(inner: Pizza)
    | Sized(inner: Pizza, size: string)

  datatype Factory = NewYorkFactory | ChicagoFactory

  // ---------------------------------------------------------------------
  // ASCII case conversion

  predicate IsUpper(c: char) { 'A' <= c <= 'Z' }

  predicate IsLower(c: char) { 'a' <= c <= 'z' }

  function ToLowerChar(c: char): char
  {
    if IsUpper(c) then (c as int + 32) as char else c
  }

  function ToUpperChar(c: char): char
  {
    if IsLower(c) then (c as int - 32) as char else c
  }

  /** `str.lower` on ASCII letters. */
  function Lower(s: string): (r: string)
    ensures |r| == |s|
    ensures forall i :: 0 <= i < |s| ==> r[i] == ToLowerChar(s[i])
  {
    if |s| == 0 then "" else [ToLowerChar(s[0])] + Lower(s[1..])
  }

  lemma LowerIdempotent(s: string)
    ensures Lower(Lower(s)) == Lower(s)
  {
    assert forall i :: 0 <= i < |s| ==> ToLowerChar(ToLowerChar(s[i])) == ToLowerChar(s[i]);
  }

  predicate IsLetter(c: char) { IsUpper(c) || IsLower(c) }

  /** Whether the character before position `i` is a letter. */
  predicate AfterLetter(s: string, i: nat)
    requires i < |s|
  {
    i > 0 && IsLetter(s[i - 1])
  }

  /** The case `str.title` gives a character: lower case right after a
      letter, upper case anywhere else; non-letters are left alone. */
  function TitleChar(c: char, afterLetter: bool): char
  {
    if afterLetter then ToLowerChar(c) else ToUpperChar(c)
  }

  /** Changing the case of a character keeps it a letter or a non-letter,
      keeps its lower case, and doing it twice is doing it once. */
  lemma TitleCharFacts(c: char, afterLetter: bool)
    ensures ToLowerChar(TitleChar(c, afterLetter)) == ToLowerChar(c)
    ensures IsLetter(TitleChar(c, afterLetter)) <==> IsLetter(c)
    ensures TitleChar(TitleChar(c, afterLetter), afterLetter) == TitleChar(c, afterLetter)
  {
  }

  /** The per-character facts for a whole title-cased string. */
  lemma TitleKeepsLetters(s: string, r: string)
    requires |r| == |s|
    requires forall i :: 0 <= i < |s| ==> r[i] == TitleChar(s[i], AfterLetter(s, i))
    ensures forall i :: 0 <= i < |s| ==> ToLowerChar(r[i]) == ToLowerChar(s[i]) && (IsLetter(r[i]) <==> IsLetter(s[i]))
  {
    forall i | 0 <= i < |s|
      ensures ToLowerChar(r[i]) == ToLowerChar(s[i]) && (IsLetter(r[i]) <==> IsLetter(s[i]))
    {
      var b := AfterLetter(s, i);
      assert r[i] == TitleChar(s[i], b);
      TitleCharFacts(s[i], b);
    }
  }

  /** `str.title` on ASCII letters from a point where the previous
      character was (`afterLetter`) or was not a letter. */
  function TitleFrom(s: string, afterLetter: bool): (r: string)
    ensures |r| == |s|
    ensures forall i :: 0 <= i < |s| ==>
      r[i] == TitleChar(s[i], if i == 0 then afterLetter else IsLetter(s[i - 1]))
  {
    if |s| == 0 then ""
    else
      var rest := TitleFrom(s[1..], IsLetter(s[0]));
      assert forall i :: 1 <= i < |s| ==> s[1..][i - 1] == s[i];
      [TitleChar(s[0], afterLetter)] + rest
  }

  /** `str.title`: a letter at the start or after a non-letter becomes
      upper case, a letter after a letter lower case, and every other
      character is kept. */
  function Title(s: string): (r: string)
    ensures |r| == |s|
    ensures forall i :: 0 <= i < |s| ==>
      && (IsLetter(s[i]) && (i == 0 || !IsLetter(s[i - 1])) ==> r[i] == ToUpperChar(s[i]))
      && (IsLetter(s[i]) && i > 0 && IsLetter(s[i - 1]) ==> r[i] == ToLowerChar(s[i]))
      && (!IsLetter(s[i]) ==> r[i] == s[i])
    ensures Lower(r) == Lower(s)
  {
    var r := TitleFrom(s, false);
    assert forall i :: 0 <= i < |s| ==> r[i] == TitleChar(s[i], AfterLetter(s, i));
    TitleKeepsLetters(s, r);
    r
  }

  /** Title-casing a title-cased string changes nothing. */
  lemma TitleIdempotent(s: string)
    ensures Title(Title(s)) == Title(s)
  {
    var t := Title(s);
    assert forall i :: 0 <= i < |s| ==> t[i] == TitleChar(s[i], AfterLetter(s, i));
    TitleKeepsLetters(s, t);
    forall i | 0 <= i < |s|
      ensures Title(t)[i] == t[i]
    {
      TitleCharFacts(s[i], AfterLetter(s, i));
    }
  }

  // ---------------------------------------------------------------------
  // Cost and description

  function BaseCost(k: Kind): int
  {
    match k
    case Margherita => 200
    case Farmhouse => 250
  }

  function KindName(k: Kind): string
  {
    match k
    case Margherita => "Margherita"
    case Farmhouse => "Farmhouse"
  }

  /** `get_description` of the six base classes. */
  function BaseDescription(style: Style, k: Kind): string
  {
    match style
    case Plain => KindName(k)
    case NewYork => "New York " + KindName(k)
    case Chicago => "Chicago " + KindName(k)
  }

  /** The price table of `Size.get_cost`; unknown sizes cost nothing. */
  function SizeCost(size: string): (r: int)
    ensures r == 0 || r == 50 || r == 100
    ensures r == 100 <==> size == "large"
    ensures r == 50 <==> size == "medium"
  {
    if size == "small" then 0
    else if size == "medium" then 50
    else if size == "large" then 100
    else 0
  }

  /** `Size(pizza, size)`: the size is kept in lower case. */
  function WithSize(p: Pizza, size: string): Pizza
  {
    Sized(p, Lower(size))
  }

  /** The base pizza at the bottom of a decorator chain. */
  function Root(p: Pizza): (b: Pizza)
    ensures b.Base?
  {
    match p
    case Base(_, _) => p
    case Cheese(q) => Root(q)
    case Jalapenos(q) => Root(q)
    case Olives(q) => Root(q)
    case Sized(q, _) => Root(q)
  }

  /** `get_cost`: each decorator adds its amount to the cost of the pizza it
      wraps, so no decorated pizza costs less than its base. */
  function Cost(p: Pizza): (r: int)
    ensures r >= BaseCost(Root(p).kind)
  {
    match p
    case Base(_, k) => BaseCost(k)
    case Cheese(q) => Cost(q) + 50
    case Jalapenos(q) => Cost(q) + 40
    case Olives(q) => Cost(q) + 30
    case Sized(q, size) => Cost(q) + SizeCost(size)
  }

  /** `get_description`: each decorator appends its label to the
      description of the pizza it wraps, so the base description comes first. */
  function Description(p: Pizza): (r: string)
    ensures BaseDescription(Root(p).style, Root(p).kind) <= r
  {
    match p
    case Base(style, k) => BaseDescription(style, k)
    case Cheese(q) => Description(q) + ", Cheese"
    case Jalapenos(q) => Description(q) + ", Jalapenos"
    case Olives(q) => Description(q) + ", Olives"
    case Sized(q, size) => Description(q) + " (" + Title(size) + ")"
  }

  /** A New York or Chicago variant costs what the plain base costs. */
  lemma StyleKeepsCost(style: Style, k: Kind)
    ensures Cost(Base(style, k)) == Cost(Base(Plain, k))
    ensures Cost(Base(style, k)) == (if k == Margherita then 200 else 250)
  {
  }

  // ---------------------------------------------------------------------
  // Factories

  function FactoryStyle(f: Factory): Style
  {
    match f
    case NewYorkFactory => NewYork
    case ChicagoFactory => Chicago
  }

  /** `get_pizza` of both factories: the name is matched ignoring case. */
  function GetPizza(f: Factory, pizzaType: string): (r: Option<Pizza>)
    ensures r.Some? <==> Lower(pizzaType) == "margherita" || Lower(pizzaType) == "farmhouse"
    ensures r.Some? ==> r.value.Base? && r.value.style == FactoryStyle(f)
    ensures r.Some? ==> (r.value.kind == Margherita <==> Lower(pizzaType) == "margherita")
  {
    var name := Lower(pizzaType);
    if name == "margherita" then Some(Base(FactoryStyle(f), Margherita))
    else if name == "farmhouse" then Some(Base(FactoryStyle(f), Farmhouse))
    else None
  }

  /** The lookup depends only on the lower-cased name. */
  lemma GetPizzaIgnoresCase(f: Factory, pizzaType: string)
    ensures GetPizza(f, pizzaType) == GetPizza(f, Lower(pizzaType))
  {
    LowerIdempotent(pizzaType);
  }

  // ---------------------------------------------------------------------
  // Stacks of decorators

  datatype Topping = AddCheese | AddJalapenos | AddOlives | AddSize(size: string)

  function Decorate(p: Pizza, t: Topping): Pizza
  {
    match t
    case AddCheese => Cheese(p)
    case AddJalapenos => Jalapenos(p)
    case AddOlives => Olives(p)
    case AddSize(size) => WithSize(p, size)
  }

  /** Wrap `p` in the decorators of `ts`, the first innermost. */
  function DecorateAll(p: Pizza, ts: seq<Topping>): Pizza
    decreases |ts|
  {
    if |ts| == 0 then p else DecorateAll(Decorate(p, ts[0]), ts[1..])
  }

  /** The amount one decorator adds. */
  function Increment(t: Topping): (r: int)
    ensures r >= 0
  {
    match t
    case AddCheese => 50
    case AddJalapenos => 40
    case AddOlives => 30
    case AddSize(size) => SizeCost(Lower(size))
  }

  function SumIncrements(ts: seq<Topping>): (r: int)
    ensures r >= 0
    decreases |ts|
  {
    if |ts| == 0 then 0 else Increment(ts[0]) + SumIncrements(ts[1..])
  }

  /** A stack of decorators costs the pizza it wraps plus their increments. */
  lemma {:induction false} CostOfDecorations(p: Pizza, ts: seq<Topping>)
    ensures Cost(DecorateAll(p, ts)) == Cost(p) + SumIncrements(ts)
    ensures Cost(DecorateAll(p, ts)) >= Cost(p)
    ensures Root(DecorateAll(p, ts)) == Root(p)
    decreases |ts|
  {
    if |ts| > 0 {
      CostOfDecorations(Decorate(p, ts[0]), ts[1..]);
    }
  }

  /** The text one decorator appends to the description. */
  function Label(t: Topping): string
  {
    match t
    case AddCheese => ", Cheese"
    case AddJalapenos => ", Jalapenos"
    case AddOlives => ", Olives"
    case AddSize(size) => " (" + Title(Lower(size)) + ")"
  }

  function Labels(ts: seq<Topping>): string
    decreases |ts|
  {
    if |ts| == 0 then "" else Label(ts[0]) + Labels(ts[1..])
  }

  lemma DecorateAppendsLabel(p: Pizza, t: Topping)
    ensures Description(Decorate(p, t)) == Description(p) + Label(t)
  {
    if t.AddSize? {
      var d, m := Description(p), Title(Lower(t.size));
      assert d + " (" + m + ")" == d + (" (" + m + ")");
    }
  }

  /** A stack of decorators describes the pizza it wraps followed by their
      labels, innermost first. */
  lemma {:induction false} DescriptionOfDecorations(p: Pizza, ts: seq<Topping>)
    ensures Description(DecorateAll(p, ts)) == Description(p) + Labels(ts)
    decreases |ts|
  {
    if |ts| > 0 {
      var q := Decorate(p, ts[0]);
      DescriptionOfDecorations(q, ts[1..]);
      DecorateAppendsLabel(p, ts[0]);
      AppendRegroups(Description(q), Description(p), Label(ts[0]), Labels(ts[1..]));
    } else {
      assert Description(p) + "" == Description(p);
    }
  }

  lemma AppendRegroups(x: string, a: string, b: string, c: string)
    requires x == a + b
    ensures x + c == a + (b + c)
  {
  }

  lemma {:induction false} SumWithout(ts: seq<Topping>, i: nat)
    requires i < |ts|
    ensures SumIncrements(ts) == Increment(ts[i]) + SumIncrements(ts[..i] + ts[i + 1..])
    decreases i
  {
    if i > 0 {
      SumWithout(ts[1..], i - 1);
      assert ts[1..][..i - 1] + ts[1..][i..] == (ts[..i] + ts[i + 1..])[1..];
    } else {
      assert ts[..0] + ts[1..] == ts[1..];
    }
  }

  /** The total of the increments does not depend on their order. */
  lemma {:induction false} SumIncrementsPermutation(ts: seq<Topping>, us: seq<Topping>)
    requires multiset(ts) == multiset(us)
    ensures SumIncrements(ts) == SumIncrements(us)
    decreases |ts|
  {
    if |ts| == 0 {
      assert |us| == |multiset(us)| == 0;
    } else {
      var x := ts[0];
      assert x in multiset(us);
      var i :| 0 <= i < |us| && us[i] == x;
      var rest := us[..i] + us[i + 1..];
      assert us == us[..i] + [x] + us[i + 1..];
      assert ts == [x] + ts[1..];
      assert multiset(us) == multiset(us[..i]) + multiset{x} + multiset(us[i + 1..]);
      assert multiset(rest) == multiset(us[..i]) + multiset(us[i + 1..]);
      assert multiset(ts) == multiset{x} + multiset(ts[1..]);
      assert multiset(ts[1..]) == multiset(ts) - multiset{x};
      assert multiset(rest) == multiset(us) - multiset{x};
      SumIncrementsPermutation(ts[1..], rest);
      SumWithout(us, i);
    }
  }

  /** Applying the same decorators in any order gives the same cost. */
  lemma CostIndependentOfOrder(p: Pizza, ts: seq<Topping>, us: seq<Topping>)
    requires multiset(ts) == multiset(us)
    ensures Cost(DecorateAll(p, ts)) == Cost(DecorateAll(p, us))
  {
    CostOfDecorations(p, ts);
    CostOfDecorations(p, us);
    SumIncrementsPermutation(ts, us);
  }

  /** The demo order: a New York Farmhouse, large, with cheese and jalapenos. */
  function DemoPizza(): Option<Pizza>
  {
    match GetPizza(NewYorkFactory, "Farmhouse")
    case None => None
    case Some(p) => Some(DecorateAll(p, [AddSize("Large"), AddCheese, AddJalapenos]))
  }

  /** A string without upper-case letters is its own lower case. */
  lemma LowerOfLowerCase(s: string)
    requires forall i :: 0 <= i < |s| ==> !IsUpper(s[i])
    ensures Lower(s) == s
  {
  }

  lemma LowerCapitalised(c: char, s: string)
    requires IsUpper(c)
    requires forall i :: 0 <= i < |s| ==> !IsUpper(s[i])
    ensures Lower([c] + s) == [ToLowerChar(c)] + s
  {
    assert ([c] + s)[1..] == s;
    LowerOfLowerCase(s);
  }

  lemma LowerFarmhouse()
    ensures Lower("Farmhouse") == "farmhouse"
  {
    assert "Farmhouse" == ['F'] + "armhouse";
    LowerCapitalised('F', "armhouse");
  }

  lemma LowerLarge()
    ensures Lower("Large") == "large"
  {
    assert "Large" == ['L'] + "arge";
    LowerCapitalised('L', "arge");
  }

  lemma DemoBase()
    ensures GetPizza(NewYorkFactory, "Farmhouse") == Some(Base(NewYork, Farmhouse))
  {
    LowerFarmhouse();
  }

  lemma DemoPizzaShape()
    ensures DemoPizza() == Some(Jalapenos(Cheese(Sized(Base(NewYork, Farmhouse), "large"))))
  {
    DemoBase();
    LowerLarge();
    var p := Base(NewYork, Farmhouse);
    var ts := [AddSize("Large"), AddCheese, AddJalapenos];
    assert ts[1..] == [AddCheese, AddJalapenos];
    assert DecorateAll(p, ts) == DecorateAll(Sized(p, "large"), [AddCheese, AddJalapenos]);
  }

  /** `"large".title()`. */
  lemma TitleOfLarge()
    ensures Title("large") == "Large"
  {
    assert TitleFrom("e", true) == "e";
    assert TitleFrom("ge", true) == "ge";
    assert TitleFrom("rge", true) == "rge";
    assert TitleFrom("arge", true) == "arge";
  }

  /** Appending the same text to equal strings; keeps the literal
      comparisons below small. */
  lemma ConcatLiteral(a: string, b: string, c: string)
    requires a == b
    ensures a + c == b + c
  {
  }

  /** The description of the demo pizza, built up one decorator at a time. */
  lemma DemoSizedDescription()
    ensures Description(Sized(Base(NewYork, Farmhouse), "large")) == "New York Farmhouse (Large)"
  {
    TitleOfLarge();
  }

  lemma DemoCheeseDescription()
    ensures Description(Cheese(Sized(Base(NewYork, Farmhouse), "large"))) == "New York Farmhouse (Large), Cheese"
  {
    var sized := Sized(Base(NewYork, Farmhouse), "large");
    DemoSizedDescription();
    ConcatLiteral(Description(sized), "New York Farmhouse (Large)", ", Cheese");
  }

  lemma DemoFullDescription()
    ensures Description(Jalapenos(Cheese(Sized(Base(NewYork, Farmhouse), "large"))))
      == "New York Farmhouse (Large), Cheese, Jalapenos"
  {
    var cheese := Cheese(Sized(Base(NewYork, Farmhouse), "large"));
    DemoCheeseDescription();
    ConcatLiteral(Description(cheese), "New York Farmhouse (Large), Cheese", ", Jalapenos");
  }

  lemma DemoPizzaCost()
    ensures Cost(Jalapenos(Cheese(Sized(Base(NewYork, Farmhouse), "large")))) == 440
  {
    assert SizeCost("large") == 100;
  }

  /** The demo order costs 250 + 100 + 50 + 40. */
  lemma DemoCost()
    ensures DemoPizza().Some?
    ensures Cost(DemoPizza().value) == 440
  {
    DemoPizzaShape();
    DemoPizzaCost();
  }

  /** The demo order lists its decorators in the order they were applied. */
  lemma DemoDescription()
    ensures DemoPizza().Some?
    ensures Description(DemoPizza().value) == "New York Farmhouse (Large), Cheese, Jalapenos"
  {
    DemoPizzaShape();
    DemoFullDescription();
  }
}

=== FILE: seqs.dfy ===
/** Sequence helpers standing for the Python list operations the models use:
    a linear search (`for x in xs: if p(x): ...`), a list comprehension with a
    condition, `del xs[i]` and `xs.remove(x)`. */
module Seqs {
  import opened Wrappers

  /** Index of the first element satisfying `p`, as a forward scan finds it. */
  function FindFirst<T>(s: seq<T>, p: T -> bool): (r: Option<nat>)
    ensures r.Some? ==> r.value < |s| && p(s[r.value])
    ensures r.Some? ==> forall j :: 0 <= j < r.value ==> !p(s[j])
    ensures r.None? <==> forall j :: 0 <= j < |s| ==> !p(s[j])
  {
    if |s| == 0 then None
    else if p(s[0]) then Some(0)
    else
      match FindFirst(s[1..], p)
      case None => None
      case Some(i) => Some(i + 1)
  }

  /** The elements of `s` that satisfy `keep`, in their original order. */
  function Filter<T>(s: seq<T>, keep: T -> bool): (r: seq<T>)
    ensures |r| <= |s|
    ensures forall i :: 0 <= i < |r| ==> keep(r[i]) && r[i] in s
    ensures forall i :: 0 <= i < |s| && keep(s[i]) ==> s[i] in r
  {
    if |s| == 0 then []
    else if keep(s[0]) then [s[0]] + Filter(s[1..], keep)
    else Filter(s[1..], keep)
  }

  /** Filtering distributes over concatenation, so it keeps relative order. */
  lemma {:induction false} FilterConcat<T>(a: seq<T>, b: seq<T>, keep: T -> bool)
    ensures Filter(a + b, keep) == Filter(a, keep) + Filter(b, keep)
  {
    if |a| == 0 {
      assert a + b == b;
    } else {
      assert (a + b)[1..] == a[1..] + b;
      FilterConcat(a[1..], b, keep);
    }
  }

  /** `s` without the element at index `i`. */
  function RemoveAt<T>(s: seq<T>, i: nat): (r: seq<T>)
    requires i < |s|
    ensures |r| == |s| - 1
    ensures forall j :: 0 <= j < i ==> r[j] == s[j]
    ensures forall j :: i <= j < |r| ==> r[j] == s[j + 1]
    ensures multiset(r) + multiset{s[i]} == multiset(s)
  {
    assert s == s[..i] + [s[i]] + s[i + 1..];
    s[..i] + s[i + 1..]
  }

  /** Python's `xs.remove(x)` on a list whose absence is checked first:
      drops the first occurrence of `x`, or nothing when `x` is absent. */
  function RemoveFirst<T(==)>(s: seq<T>, x: T): (r: seq<T>)
    ensures x !in s ==> r == s
    ensures x in s ==> multiset(r) + multiset{x} == multiset(s)
    ensures x in s ==> |r| == |s| - 1
    ensures x in s ==> exists i ::
      && 0 <= i < |s| && s[i] == x
      && (forall j :: 0 <= j < i ==> s[j] != x)
      && r == s[..i] + s[i + 1..]
  {
    match FindFirst(s, y => y == x)
    case None => s
    case Some(i) => RemoveAt(s, i)
  }

  /** Position of the first occurrence of `x` in `s`. */
  function IndexOf<T(==)>(s: seq<T>, x: T): (r: nat)
    requires x in s
    ensures r < |s| && s[r] == x
    ensures forall j :: 0 <= j < r ==> s[j] != x
  {
    if s[0] == x then 0 else 1 + IndexOf(s[1..], x)
  }

  /** `xs.remove(x)` deletes at the index of the first occurrence. */
  lemma RemoveFirstAtIndexOf<T>(s: seq<T>, x: T)
    requires x in s
    ensures RemoveFirst(s, x) == RemoveAt(s, IndexOf(s, x))
  {
    var k := FindFirst(s, y => y == x).value;
    var i := IndexOf(s, x);
    assert !(k < i) && !(i < k);
  }

  /** Appending to a list does not move the first occurrence of an element
      already in it; an element new to it is found at the end. */
  lemma IndexOfAppend<T>(s: seq<T>, y: T, x: T)
    requires x in s + [y]
    ensures x in s ==> IndexOf(s + [y], x) == IndexOf(s, x)
    ensures x !in s ==> IndexOf(s + [y], x) == |s|
  {
    var i := IndexOf(s + [y], x);
    if x in s {
      var k := IndexOf(s, x);
      assert (s + [y])[k] == x;
    } else {
      assert forall j :: 0 <= j < |s| ==> (s + [y])[j] != x;
    }
  }
}

=== FILE: wrappers.dfy ===
/** Failure-compatible wrappers shared by every model in this project:
    `Option` stands for Python's `None`-or-value returns, `Result` for
    operations whose Python original raises an exception. */
module Wrappers {

  datatype Option<+T> = None | Some(value: T)

  datatype Result<+T, +E> = Success(value: T) | Failure(error: E)
}
